=== FILE: README.md ===
# Appointment booking: a Dafny model of the booking screens

This project models the logic of a React Native appointment-booking app.
It covers four pieces, each modelled on its own:

- **The booking form** (`BookingForm`, with `FormValidation`, `CountryPicker`, `Strings` and `Seqs`).
  - The field validators: the email regular expression, the phone digit count, and the card number, expiry and CVC checks.
  - `validateForm` and the error record it stores.
  - `updateFormData`.
  - The country-code search.
  - The four-step machine driven by the form's buttons: 1 personal information, 2 payment, 3 confirmed, 4 failed.
- **The date and time picker** (`AppointmentCalendar`).
  - The default half-hour grid of time slots.
  - The availability guard on slot selection.
  - The day arrows, bounded by `minDate` and `maxDate`.
- **The service list** (`ServiceSelection`): the All / Free / Paid tabs and the FREE-or-price badge.
- **The booking page** (`BookingPage`): the three-step wizard (service, time, details), with its back and completion handlers.

Each screen is a state record and a pure transition function. Sequences of
user actions are folded over that function (`Run`, `Steps`). Each
operation is paired with a partner, and lemmas connect the two:

- an invariant that every reachable state keeps;
- a reference definition, such as the regular expression as an existential split, or the slot grid in closed form;
- a relation between two calls, such as idempotence, partition, or paid versus free.

Modelling choices:

- Strings are sequences of Unicode scalar values. JavaScript's `length`
  counts UTF-16 code units, so it is modelled as `Strings.Utf16Length`.
  `\s` and `trim` use the ECMAScript whitespace set. `\d` matches ASCII digits only.
- `!value.trim()` is modelled as `IsBlank(value)`, meaning "every character is whitespace".
  `Strings.TrimEmptyIffBlank` proves that the two agree.
- A service counts as paid when `selectedService.price && selectedService.price > 0` holds.
  Here the price is an optional real, and `null` and `0` are both free. This test is the `paid` parameter of the form.
- The form's simulated submission has two phases:
  - A valid press starts loading and queues the form data as captured at that moment (`pending`).
  - A later `SubmissionSettles(failed)` action plays the timer firing. It moves to step 3, or to step 4 when it failed, and reports the captured data to `onSubmit`.
  - `failed` stands for the outcome of the random draw.
- Slot availability is a parameter `draw: nat -> bool`. `draw(k)` is the verdict of the `k`-th draw of one call of `generateDefaultTimeSlots`.
- Dates are instants in milliseconds, and the arrows move by 86,400,000 ms.
- Two behaviours of the code are easy to miss, and the model keeps both:
  - The reset buttons on steps 3 and 4 only set the step back to 1. They keep the form data.
  - The card number check counts UTF-16 units after removing whitespace. Letters count as well as digits.
- The form has two step functions:
  - `BookingForm.NextAsWritten` is the form as written. Its "Proceed to Payment" runs the full `validateForm`, card fields included.
  - `BookingForm.Next` is the corrected form. Its "Proceed to Payment" checks only the fields shown on step 1.
  - The two differ only in the step they move to and the errors they store. `NextPreservesInvariant` and `RunPreservesInvariant` are about `Next`. `NextAsWrittenPreservesInvariant` and `RunAsWrittenPreservesInvariant` state the same invariant for the code as written.
- The page's `Dispatch` is the corrected wiring, and `DispatchAsWritten` is the wiring as written.

## Model

| member | source | states |
|---|---|---|
| Strings.IsSpace | components/BookingForm.tsx:148 | the ECMAScript whitespace set of `\s` and `trim`: space, tab, line feed and carriage return are in it; no digit, ASCII letter, `@`, `.`, `/` or `+` is |
| Strings.Trim | components/BookingForm.tsx:173 | `trim`: leading and trailing ECMAScript whitespace removed; `TrimEmptyIffBlank` states when the result is empty |
| Strings.TrimEmptyIffBlank | components/BookingForm.tsx:173 | `!s.trim()` holds exactly when every character of `s` is whitespace |
| Strings.Utf16Length | components/BookingForm.tsx:220 | JavaScript `length` is between the number of characters and twice that, and equals it when every character is in the Basic Multilingual Plane |
| Strings.Includes | components/BookingForm.tsx:764-765 | `includes` is true exactly when the query occurs at some index of the string |
| Strings.ToLower | components/BookingForm.tsx:764 | lower-casing keeps the length and maps each character on its own |
| Strings.NatToStringRoundTrip | components/AppointmentCalendar.tsx:158 | the decimal text of an hour reads back as that hour, which is why slot ids can be decoded |
| FormValidation.ValidateEmail | components/BookingForm.tsx:147-150 | `validateEmail`, as a scan for the first `@`; `ValidateEmailMatchesPattern` proves it equal to the regular expression |
| FormValidation.ValidateEmailMatchesPattern | components/BookingForm.tsx:147-150 | the scanner accepts exactly the strings that split as run `@` run `.` run, where each run is non-empty and has no whitespace and no `@` |
| FormValidation.ValidEmailShape | components/BookingForm.tsx:147-150 | an accepted address has exactly one `@`, a non-empty part before it, and a `.` strictly inside the part after it |
| FormValidation.EmailAcceptsExample | components/BookingForm.tsx:148 | `a@b.co` is accepted |
| FormValidation.EmailRejectsExamples | components/BookingForm.tsx:148 | three addresses are refused: `ab.co` (no `@`), `a@bco` (no `.` after the `@`) and `a@.co` (a `.` right after the `@`) |
| FormValidation.ValidatePhone | components/BookingForm.tsx:152-158 | `validatePhone`: the two `replace` passes and the digit-count bounds; `ValidatePhoneCountsDigits` gives the closed form |
| FormValidation.ValidatePhoneCountsDigits | components/BookingForm.tsx:152-158 | a phone number passes exactly when it has 7 to 15 ASCII digits, inclusive |
| FormValidation.PhoneIgnoresNonDigit | components/BookingForm.tsx:152-158 | inserting a non-digit anywhere never changes the verdict |
| FormValidation.PhoneCountsCountryCode | components/BookingForm.tsx:194 | the code is checked together with the number, so behind `+1` the number needs 6 to 14 digits |
| FormValidation.IsCardNumberLongEnough | components/BookingForm.tsx:204 | the card number check: at least 13 UTF-16 units after removing whitespace; `CardNumberCountsCharacters` states what that means for plain text |
| FormValidation.IsExpiryFormat | components/BookingForm.tsx:212 | the expiry check: two digits, `/`, two digits, and nothing else; `ExpiryIsShapeOnly` shows that it checks shape only |
| FormValidation.IsCvcLongEnough | components/BookingForm.tsx:220 | the CVC check: at least 3 UTF-16 units |
| FormValidation.ExpiryIsShapeOnly | components/BookingForm.tsx:212 | the expiry check is about shape only: `99/99` passes and `1/25` does not |
| FormValidation.CvcCountsCodeUnits | components/BookingForm.tsx:220 | the CVC check counts UTF-16 units: any three characters pass, one never does, two emoji pass, and for Basic Multilingual Plane text it is exactly "at least 3 characters" |
| FormValidation.CardNumberCountsCharacters | components/BookingForm.tsx:204 | for whitespace-free text in the Basic Multilingual Plane, the card check is exactly "at least 13 characters", letters included |
| CountryPicker.FilterCountries | components/BookingForm.tsx:762-766 | the country search as the list's `filter`; its properties are stated by `FilterCountriesSpec` |
| CountryPicker.FilterCountriesSpec | components/BookingForm.tsx:762-766 | the search result is an order-preserving selection holding exactly the matching entries, each as often as in the list |
| CountryPicker.EmptyQueryKeepsAll | components/BookingForm.tsx:762-766 | an empty query shows the whole list in its original order |
| CountryPicker.CodeMatchIgnoresCase | components/BookingForm.tsx:765 | against a code without letters, two queries equal up to ASCII case give the same answer |
| CountryPicker.QueryCaseIgnored | components/BookingForm.tsx:764-765 | when no code contains a letter, the search ignores the ASCII case of the query |
| BookingForm.FormData.Set | components/BookingForm.tsx:140 | setting field `k` changes `k` to the new value and keeps every other field |
| BookingForm.FormErrors.Clear | components/BookingForm.tsx:142-144 | clearing error `k` empties `k` and keeps every other message |
| BookingForm.IsPaid | components/BookingForm.tsx:200 | the price test: a `null` or zero price is free, and every positive price is paid |
| BookingForm.ValidateForm | components/BookingForm.tsx:160-228 | the returned flag is true exactly when every stored message is empty |
| BookingForm.PersonalFieldErrors | components/BookingForm.tsx:173-197 | a personal field is "required" exactly when blank; only a non-blank email or phone is format-checked, against the regular expression or the combined digit count |
| BookingForm.PaidAddsCardChecks | components/BookingForm.tsx:199-224 | a paid service adds the three card checks and changes nothing else, in both the messages and the verdict |
| BookingForm.FreeServiceIgnoresCard | components/BookingForm.tsx:200 | for a free service the card fields affect neither the messages nor the verdict |
| BookingForm.ErrorsAreLocal | components/BookingForm.tsx:160-228 | each check writes only its own field's message |
| BookingForm.BlankFormRefused | components/BookingForm.tsx:113-124 | the initial form is refused, with the personal fields marked "required" |
| BookingForm.UpdateFormData | components/BookingForm.tsx:139-145 | only field `k` and error `k` change; all other fields, errors and state are kept |
| BookingForm.HandleSubmit | components/BookingForm.tsx:230-235 | a valid form starts loading and queues exactly the current data; an invalid one only stores the errors; nothing else in the state changes |
| BookingForm.ProceedToPaymentAsWritten | components/BookingForm.tsx:390-400 | as written, "Proceed to Payment" advances only when the full validation, card fields included, passes |
| BookingForm.ProceedToPayment | components/BookingForm.tsx:390-400 | with the intended check, "Proceed to Payment" advances exactly when the fields shown on step 1 pass |
| BookingForm.InitialSatisfiesInvariant | components/BookingForm.tsx:111-124 | the initial form meets the invariant that `NextPreservesInvariant` keeps |
| BookingForm.EditableOn | components/BookingForm.tsx:278-512 | the text inputs shown per step: only steps 1 and 2 have any, the card fields are exactly the ones on step 2, and the country code and payment method are never typed |
| BookingForm.Next | components/BookingForm.tsx:230-248 | one step of the corrected form: only the timer reports a submission, and it reports the oldest captured data; only the back and reset buttons call `onBack`; only edits and the country picker change the form data; only the submit buttons and the timer change the pending submissions |
| BookingForm.NextAsWritten | components/BookingForm.tsx:390-400 | one step of the form as written: the same effect as `Next`, and the same state apart from the step and the stored errors |
| BookingForm.Run | components/BookingForm.tsx:230-248 | a sequence of actions folded over `Next`, with one effect per action |
| BookingForm.RunAsWritten | components/BookingForm.tsx:390-400 | a sequence of actions folded over `NextAsWritten`, with one effect per action |
| BookingForm.NextPreservesInvariant | components/BookingForm.tsx:230-248 | in the corrected form, each action keeps the step in {1,2,3,4} and shows the payment step only for a paid service; only validated data is queued and reported |
| BookingForm.RunPreservesInvariant | components/BookingForm.tsx:230-248 | along any run of the corrected form the invariant holds, and `onSubmit` only ever receives data that passed validation |
| BookingForm.NextAsWrittenPreservesInvariant | components/BookingForm.tsx:390-400 | the form as written keeps the same invariant on every action, and reports only validated data |
| BookingForm.RunAsWrittenPreservesInvariant | components/BookingForm.tsx:390-400 | along any run of the form as written the invariant holds, and `onSubmit` only receives validated data |
| BookingForm.FreeServiceSkipsPayment | components/BookingForm.tsx:397-399 | a free service never shows step 2 |
| BookingForm.ProceedWithPaidService | components/BookingForm.tsx:392-396 | from step 1 a paid service goes to step 2 exactly when the step-1 fields pass, and nothing is submitted |
| BookingForm.ProceedWithPaidServiceAsWritten | components/BookingForm.tsx:392-396 | as written, it goes to step 2 exactly when the whole form, card included, passes |
| BookingForm.AsWrittenPaidStuckOnStepOne | components/BookingForm.tsx:393-395 | as written, no run of a paid booking leaves step 1 or submits |
| BookingForm.PaidReachesPayment | components/BookingForm.tsx:393-395 | with the intended check, valid personal details and one press reach the payment step |
| BookingForm.ProceedWithFreeService | components/BookingForm.tsx:397-399 | from step 1 a free service submits directly: a valid form is queued and an invalid one is not |
| BookingForm.InvalidSubmitKeepsStep | components/BookingForm.tsx:230-233 | submitting an invalid form keeps the step and the pending submissions, and reports nothing |
| BookingForm.SettledSubmissionLands | components/BookingForm.tsx:237-247 | a settled submission lands on step 4 exactly when it failed, otherwise on step 3, stops loading and reports the captured data with the status "error" exactly when it failed |
| BookingForm.BackChangesOnlyStep | components/BookingForm.tsx:543-736 | the back button (line 543) moves 2→1, and the resets on step 3 (lines 643 and 654) and step 4 (lines 727 and 736) move to 1; each changes only the step, and the form data is kept |
| BookingForm.PickCountrySetsCode | components/BookingForm.tsx:806-810 | picking a country sets the country code and no other field, closes the picker and clears the query |
| BookingForm.ProgressBarOnEntrySteps | components/BookingForm.tsx:830 | in every reachable state the progress bar shows exactly on steps 1 and 2 |
| AppointmentCalendar.Hour12 | components/AppointmentCalendar.tsx:159 | the clock-face hour is in 1..12 and agrees with the hour modulo 12 |
| AppointmentCalendar.GenerateDefaultTimeSlots | components/AppointmentCalendar.tsx:150-174 | the loop yields 17 slots, and slot `k` is hour `9 + k/2` on the half hour when `k` is odd, with availability from the `k`-th draw |
| AppointmentCalendar.DefaultSlots | components/AppointmentCalendar.tsx:150-174 | the closed form the loop is checked against: the first `n` slots, slot `k` being hour `9 + k/2`, on the half hour when `k` is odd |
| AppointmentCalendar.SlotTextIgnoresDraw | components/AppointmentCalendar.tsx:158-160 | ids and labels do not depend on the draws; only availability does |
| AppointmentCalendar.GridIsHalfHourly | components/AppointmentCalendar.tsx:155-171 | slot `k` starts 30·k minutes after 9:00, so slots are chronological, and the last starts at 17:00 with none at 17:30 |
| AppointmentCalendar.LabelsFollowTheClock | components/AppointmentCalendar.tsx:159 | the suffix is AM exactly before noon; the clock-face hour is the hour, less 12 after noon |
| AppointmentCalendar.GridLabels | components/AppointmentCalendar.tsx:159-167 | the labels run 9:00 AM, …, 12:00 PM, 12:30 PM, …, 5:00 PM |
| AppointmentCalendar.SlotIdInjective | components/AppointmentCalendar.tsx:158 | a slot id determines its hour and its half hour |
| AppointmentCalendar.DefaultIdsDistinct | components/AppointmentCalendar.tsx:158-166 | the default slots have pairwise distinct ids |
| AppointmentCalendar.HandleDateChange | components/AppointmentCalendar.tsx:42-45 | a date change is stored and reported, and the selected slot is kept |
| AppointmentCalendar.HandleTimeSlotSelect | components/AppointmentCalendar.tsx:47-52 | an available slot becomes the selection and is reported; an unavailable one changes nothing and reports nothing |
| AppointmentCalendar.PreviousDay | components/AppointmentCalendar.tsx:83-87 | the left arrow moves to an earlier date no earlier than `minDate`, or does nothing; the selected slot is kept |
| AppointmentCalendar.NextDay | components/AppointmentCalendar.tsx:97-101 | the right arrow moves to a later date no later than `maxDate`, or does nothing; the selected slot is kept |
| AppointmentCalendar.ArrowsMoveOneDay | components/AppointmentCalendar.tsx:83-101 | each arrow moves exactly one day, and only when the new day is within its bound; otherwise nothing happens |
| AppointmentCalendar.ArrowsStayInBounds | components/AppointmentCalendar.tsx:83-101 | any number of arrow presses keeps a date inside `[minDate, maxDate]` |
| AppointmentCalendar.Step | components/AppointmentCalendar.tsx:72-116 | one input of the picker: only a slot press reports a slot, and it reports the pressed one; a slot press never moves the date |
| AppointmentCalendar.Steps | components/AppointmentCalendar.tsx:72-116 | a sequence of inputs folded over `Step`: one notice per input, and a slot is reported only for a slot press |
| AppointmentCalendar.InitialSelectionIsAvailable | components/AppointmentCalendar.tsx:37-40 | the picker starts with no slot selected, so along any inputs the stored selection was available when pressed |
| AppointmentCalendar.PickDateIsUnchecked | components/AppointmentCalendar.tsx:42-45 | the widget's own date choice is not checked against the bounds |
| AppointmentCalendar.SelectionIsAvailable | components/AppointmentCalendar.tsx:47-52 | along any inputs, the stored selection's `available` flag was true when it was pressed, and only such slots are reported |
| AppointmentCalendar.SelectIdempotent | components/AppointmentCalendar.tsx:47-52 | pressing the same slot twice has the effect of pressing it once |
| ServiceSelection.FilteredServices | components/ServiceSelection.tsx:61-64 | a service is shown exactly when it is in the list and the active tab keeps it |
| ServiceSelection.InitialTabShowsEverything | components/ServiceSelection.tsx:57-64 | the tab selected at first is "all", so the list first shows every service in order |
| ServiceSelection.AllShowsEverything | components/ServiceSelection.tsx:61-62 | the "All" tab shows the list unchanged |
| ServiceSelection.FilteredKeepsOrder | components/ServiceSelection.tsx:61-64 | every tab shows an order-preserving subsequence, each kept service as often as in the list |
| ServiceSelection.FreeAndPaidPartition | components/ServiceSelection.tsx:61-64 | the Free and Paid tabs split the list: their lengths and multisets add up to the whole |
| ServiceSelection.FilterTwiceIsOnce | components/ServiceSelection.tsx:61-64 | filtering again by the same tab changes nothing |
| ServiceSelection.TabsOfFour | components/ServiceSelection.tsx:63 | in a list typed free, paid, paid, free, "Free" shows the outer two and "Paid" the inner two |
| ServiceSelection.DefaultTabs | components/ServiceSelection.tsx:22-55 | in the default list, "Free" shows services 1 and 4 and "Paid" shows 2 and 3 |
| ServiceSelection.DefaultKindsAgreeWithPrices | components/ServiceSelection.tsx:22-55 | in the default list, the "paid" type agrees with the booking form's price test |
| ServiceSelection.BadgeFor | components/ServiceSelection.tsx:117-128 | the badge is FREE exactly for type "free"; otherwise it shows the service's price |
| ServiceSelection.TabBadges | components/ServiceSelection.tsx:117-128 | under the Free tab every card shows FREE, and under the Paid tab none does |
| BookingPage.HandleServiceSelect | app/index.tsx:49-52 | choosing a service stores it and moves to step 2 |
| BookingPage.HandleTimeSlotSelect | app/index.tsx:54-57 | choosing a slot stores it and moves to step 3 |
| BookingPage.HandleBookingComplete | app/index.tsx:59-63 | completion returns to step 1 with nothing selected |
| BookingPage.HandleBack | app/index.tsx:68-72 | back steps once when past step 1, is a no-op on step 1, and keeps the selections |
| BookingPage.Dispatch | app/index.tsx:130-170 | the corrected wiring: only a chosen service or a completion changes the stored service, and only a chosen slot or a completion changes the stored slot |
| BookingPage.DispatchAsWritten | app/index.tsx:145-168 | the wiring as written: the stored slot never changes, and the page never enters step 3 |
| BookingPage.Run | app/index.tsx:45-72 | callbacks folded over `Dispatch`: without a service choice or a completion the stored service is kept, and without a slot choice or a completion the stored slot is kept |
| BookingPage.RunAsWritten | app/index.tsx:145-168 | callbacks folded over `DispatchAsWritten`: the stored slot never changes, and step 3 is reached only if the page started there |
| BookingPage.DispatchPreservesInvariant | app/index.tsx:45-72 | each callback keeps the step in {1,2,3}, with a service from step 2 on and a slot on step 3 |
| BookingPage.RunPreservesInvariant | app/index.tsx:45-72 | the invariant holds along every sequence of callbacks |
| BookingPage.DotsLightUpToStep | app/index.tsx:94-122 | dot `k` is lit exactly for `k` up to the current step |
| BookingPage.BackStaysInRange | app/index.tsx:68-72 | back never leaves {1,2,3}, and it is a no-op exactly on step 1 |
| BookingPage.IntendedReachesDetails | app/index.tsx:147 | with the slot callback wired, a service then a slot leads to the form with both stored |
| BookingPage.CompletionResets | app/index.tsx:167 | with the completion callback wired, a completion resets the page on any step, including one that arrives after the form was left |
| BookingPage.AsWrittenNeverReachesDetails | app/index.tsx:147 | as wired, the page never reaches step 3 |
| BookingPage.AsWrittenStuckOnCalendar | app/index.tsx:145-149 | as wired, once on the calendar the page never moves again |
| BookingPage.AsWrittenCompletionIgnored | app/index.tsx:167 | as wired, a completion on step 3 would leave the page unchanged |

## Left out

- Rendering is not modelled: JSX, styling, `Modal`, `FlatList`, `ScrollView` and icons. Which inputs and buttons each step offers is modelled (`EditableOn` and the step guards in `Next`).
- `alert`, `toFixed(2)`, `formatDate` (`toLocaleDateString`) and the Lingui translations are display or foreign calls.
- The 1.5 s `setTimeout` delay is a separate `SubmissionSettles` action. `Math.random` is a parameter: `failed` for a submission, `draw` for slot availability.
- AppointmentCalendar.PreviousDay: a day is exactly 86,400,000 ms. This departs from `setDate(getDate() - 1)` across a daylight-saving change.
- AppointmentCalendar.NextDay: a day is exactly 86,400,000 ms. This departs from `setDate(getDate() + 1)` across a daylight-saving change.
- The `new Date()` defaults of `selectedDate`, `minDate` and `maxDate` (three months ahead) are left out. The bounds are the `Bounds` parameter, and the initial date is an argument.
- AppointmentCalendar.ArrowsStayInBounds: holds for bounds fixed across the run. In the code, `minDate` and `maxDate` are default parameters (components/AppointmentCalendar.tsx:34-35), and the page passes neither (app/index.tsx:145-149). So both are recomputed from the clock on every render, and the lower bound moves forward with time. After one re-render, the mount-time date is already below `minDate`. After one right-arrow press, the left arrow's check `prevDay >= minDate` (lines 84-86) refuses the step back, so the mount day cannot be reached again by the arrows. The model does not capture this.
- The third-party calendar widget is not part of this model, so its own use of `minDate` and `maxDate` and its `markedDates` are not modelled. `PickDate` takes any date.
- Strings.ToLower: `toLowerCase` is modelled on ASCII letters only. Every country name in the list is ASCII, but a query with other letters is compared without case folding.
- Strings are sequences of Unicode scalar values, so lone UTF-16 surrogates cannot be represented.
- The `maxLength` limits (19, 5 and 3) and keyboard types of the card inputs belong to the input widget. An `Edit` may carry any string.
- `paymentMethod` is never changed by any input, so only its initial value appears.
- A price of `NaN` or a negative price is not modelled separately. Prices are optional reals, and only `price > 0` matters.
- AppointmentCalendar.GenerateDefaultTimeSlots: models one call. In the code, `timeSlots = generateDefaultTimeSlots()` is a default parameter, so it runs again on every render. Availability is redrawn after every date change or slot press, and a slot that was selected can later be shown as unavailable and disabled. The model keeps the slot record as it was pressed.
- CountryPicker.QueryCaseIgnored: takes "no dialling code contains a letter" as a precondition. Every code in `CountryCodes` is `+` followed by digits, but the verifier cannot unfold the 52-entry list cheaply, so this is not proved for that list.
- `PickCountry` accepts any country, not only an entry of the filtered list. This over-approximates what the picker offers, and `PickCountrySetsCode` holds for every country.
- The four machines are not connected. The prop-name mismatches in the page are modelled inside `BookingPage` only. The form's fallback to its default service (price 0) is not modelled.
- The page's `serviceId` and `onBack` props to the calendar are not modelled. The calendar declares neither, and it has no back button.
- `app/admin/dashboard.tsx`, `src/i18n.ts` and `src/components/LanguageSwitcher.tsx` are not part of this model. They hold mock data, tab switching and library wrappers.

## Findings

| source | as written | input that shows it | evidently intended | confidence | as-written member | corrected member |
|---|---|---|---|---|---|---|
| components/BookingForm.tsx:393-395 | "Proceed to Payment" calls `validateForm`. For a paid service that also requires the card number, expiry and CVC, whose inputs only appear on step 2. | A paid service with valid name, email and phone, then "Proceed to Payment": the card number is still empty, so the form stays on step 1. | Check only the step-1 fields before moving to payment, and the card fields on "Pay & Confirm". | high, not executed | BookingForm.AsWrittenPaidStuckOnStepOne | BookingForm.PaidReachesPayment |
| app/index.tsx:147 | The page passes its slot handler as `onSelectTimeSlot`. The calendar declares and calls `onTimeSlotSelect`, so it calls its default no-op instead. | Choose any service, then any available slot: the page stays on step 2. | Choosing a slot stores it and moves to step 3. | high, not executed | BookingPage.AsWrittenNeverReachesDetails | BookingPage.IntendedReachesDetails |
| app/index.tsx:167 | The page passes its completion handler as `onComplete`. The form declares and calls `onSubmit`, so its default no-op runs instead. | A page on step 3 whose form completes a booking: the page keeps its step and selections. | Completion resets the page to step 1 with nothing selected. | high, not executed | BookingPage.AsWrittenCompletionIgnored | BookingPage.CompletionResets |

=== FILE: appointment_calendar.dfy ===
/**
  The date and time picker: the default half-hour grid of time slots from
  9:00 AM to 5:00 PM, the selection of a slot, and the day arrows bounded
  by `minDate` and `maxDate`.

  Dates are instants in milliseconds; the arrows move by one day. The
  availability of each generated slot is the outcome of a random draw,
  passed in as `draw`: `draw(k)` is the verdict of the `k`-th draw.
 */
module AppointmentCalendar {
  import opened Seqs
  import opened Strings

  /** `TimeSlot`. */
  datatype TimeSlot = TimeSlot(id: string, time: string, available: bool)

  const StartHour: nat := 9
  const EndHour: nat := 17

  /** Number of default slots: two per hour from 9 to 16, and 17:00 alone. */
  const SlotCount: nat := 2 * (EndHour - StartHour) + 1

  // ---------------------------------------------------------------- slot text

  /** The hour on a 12-hour clock face: `hour % 12 === 0 ? 12 : hour % 12`. */
  function Hour12(hour: nat): (h: nat)
    ensures 1 <= h <= 12
    ensures h % 12 == hour % 12
  {
    if hour % 12 == 0 then 12 else hour % 12
  }

  /** `hour < 12 ? "AM" : "PM"`. */
  function Meridiem(hour: nat): string
  {
    if hour < 12 then "AM" else "PM"
  }

  /** The minute part of a slot: "00" or "30". */
  function MinuteText(half: bool): string
  {
    if half then "30" else "00"
  }

  /** `slot-${hour}-00` or `slot-${hour}-30`. */
  function SlotId(hour: nat, half: bool): string
  {
    "slot-" + NatToString(hour) + "-" + MinuteText(half)
  }

  /** `${Hour12(hour)}:00 AM` and the like. */
  function SlotLabel(hour: nat, half: bool): string
  {
    NatToString(Hour12(hour)) + ":" + MinuteText(half) + " " + Meridiem(hour)
  }

  function MakeSlot(hour: nat, half: bool, available: bool): TimeSlot
  {
    TimeSlot(SlotId(hour, half), SlotLabel(hour, half), available)
  }

  // ---------------------------------------------------------------- the default grid

  /**
    The `k`-th default slot, in closed form: it starts at hour `9 + k / 2`,
    on the half hour when `k` is odd, and its availability is the `k`-th draw.
   */
  function DefaultSlot(k: nat, draw: nat -> bool): TimeSlot
  {
    MakeSlot(StartHour + k / 2, k % 2 == 1, draw(k))
  }

  /** The first `n` default slots. */
  function DefaultSlots(n: nat, draw: nat -> bool): (r: seq<TimeSlot>)
    ensures |r| == n
    ensures forall k :: 0 <= k < n ==> r[k] == DefaultSlot(k, draw)
  {
    if n == 0 then [] else DefaultSlots(n - 1, draw) + [DefaultSlot(n - 1, draw)]
  }

  /**
    `generateDefaultTimeSlots`: for each hour from 9 to 17 a slot on the hour,
    and one on the half hour for every hour but the last. The draws are
    consumed in the order the slots are pushed.
   */
  method GenerateDefaultTimeSlots(draw: nat -> bool) returns (slots: seq<TimeSlot>)
    ensures |slots| == SlotCount
    ensures forall k :: 0 <= k < |slots| ==> slots[k] == DefaultSlot(k, draw)
  {
    slots := [];
    var hour := StartHour;
    while hour <= EndHour
      invariant StartHour <= hour <= EndHour + 1
      invariant |slots| == if hour <= EndHour then 2 * (hour - StartHour) else SlotCount
      invariant slots == DefaultSlots(|slots|, draw)
    {
      PushDefault(slots, hour, false, draw);
      slots := slots + [MakeSlot(hour, false, draw(|slots|))];
      if hour < EndHour {
        PushDefault(slots, hour, true, draw);
        slots := slots + [MakeSlot(hour, true, draw(|slots|))];
      }
      hour := hour + 1;
    }
  }

  /** Helper: pushing the slot for `hour` (and `half`) extends the closed-form prefix by one. */
  lemma PushDefault(slots: seq<TimeSlot>, hour: nat, half: bool, draw: nat -> bool)
    requires StartHour <= hour
    requires |slots| == 2 * (hour - StartHour) + (if half then 1 else 0)
    requires slots == DefaultSlots(|slots|, draw)
    ensures slots + [MakeSlot(hour, half, draw(|slots|))] == DefaultSlots(|slots| + 1, draw)
  {
    DefaultSlotOfHour(hour, half, draw);
  }

  /** Helper: the slot the loop pushes for `hour` (and `half`) is the closed form at its index. */
  lemma DefaultSlotOfHour(hour: nat, half: bool, draw: nat -> bool)
    requires StartHour <= hour
    ensures var k := 2 * (hour - StartHour) + (if half then 1 else 0);
      DefaultSlot(k, draw) == MakeSlot(hour, half, draw(k))
  {
    var k := 2 * (hour - StartHour) + (if half then 1 else 0);
    assert k / 2 == hour - StartHour && (k % 2 == 1 <==> half);
  }

  /** Only availability is random: two draws give slots with the same ids and labels. */
  lemma SlotTextIgnoresDraw(k: nat, draw: nat -> bool, draw': nat -> bool)
    ensures DefaultSlot(k, draw).id == DefaultSlot(k, draw').id
    ensures DefaultSlot(k, draw).time == DefaultSlot(k, draw').time
    ensures DefaultSlot(k, draw).available == draw(k)
  {
  }

  /** Minutes after midnight at which the `k`-th default slot starts. */
  function StartMinute(k: nat): nat
  {
    60 * (StartHour + k / 2) + (if k % 2 == 1 then 30 else 0)
  }

  /**
    The grid is regular: slot `k` starts `30 * k` minutes after 9:00, so the
    slots are in chronological order, half an hour apart, and the last one
    starts at 17:00.
   */
  lemma GridIsHalfHourly(k: nat)
    ensures StartMinute(k) == 9 * 60 + 30 * k
    ensures StartMinute(SlotCount - 1) == 17 * 60
  {
  }

  /** The 12-hour label agrees with the 24-hour hour: "AM" exactly before noon, and the clock face hour is 12 at noon. */
  lemma LabelsFollowTheClock(k: nat, draw: nat -> bool)
    requires k < SlotCount
    ensures Meridiem(StartHour + k / 2) == "AM" <==> StartMinute(k) < 12 * 60
    ensures var h := StartHour + k / 2; Hour12(h) == if h <= 12 then h else h - 12
  {
  }

  /** The first, the noon and the last label. */
  lemma GridLabels(draw: nat -> bool)
    ensures DefaultSlot(0, draw).time == "9:00 AM"
    ensures DefaultSlot(6, draw).time == "12:00 PM"
    ensures DefaultSlot(7, draw).time == "12:30 PM"
    ensures DefaultSlot(SlotCount - 1, draw).time == "5:00 PM"
  {
    assert NatToString(9) == "9" && NatToString(5) == "5";
    assert NatToString(12) == NatToString(1) + "2" == "12";
  }

  /** A slot id determines its hour and its half: different slots never share an id. */
  lemma SlotIdInjective(h1: nat, half1: bool, h2: nat, half2: bool)
    requires SlotId(h1, half1) == SlotId(h2, half2)
    ensures h1 == h2 && half1 == half2
  {
    var a, b := NatToString(h1), NatToString(h2);
    var id := SlotId(h1, half1);
    assert id == "slot-" + a + "-" + MinuteText(half1);
    assert id == "slot-" + b + "-" + MinuteText(half2);
    assert |a| == |b|;
    assert a == id[5..5 + |a|];
    assert b == id[5..5 + |b|];
    NatToStringRoundTrip(h1);
    NatToStringRoundTrip(h2);
    assert MinuteText(half1) == id[|id| - 2..] == MinuteText(half2);
  }

  /** The default slots have pairwise distinct ids, as the list's React keys require. */
  lemma DefaultIdsDistinct(j: nat, k: nat, draw: nat -> bool)
    requires j < k < SlotCount
    ensures DefaultSlot(j, draw).id != DefaultSlot(k, draw).id
  {
    if DefaultSlot(j, draw).id == DefaultSlot(k, draw).id {
      SlotIdInjective(StartHour + j / 2, j % 2 == 1, StartHour + k / 2, k % 2 == 1);
    }
  }

  // ---------------------------------------------------------------- the picker

  /** One day, in milliseconds: what `setDate(getDate() ± 1)` adds or removes. */
  const DayLength: int := 86_400_000

  /** `currentDate` and `selectedTimeSlot`. */
  datatype CalendarState = CalendarState(currentDate: int, selectedTimeSlot: Option<TimeSlot>)

  /** The props that bound the arrows. */
  datatype Bounds = Bounds(minDate: int, maxDate: int)

  /** What the picker reports to its parent. */
  datatype Notice = Quiet | DateChanged(date: int) | TimeSlotSelected(slot: TimeSlot)

  datatype Reaction = Reaction(state: CalendarState, notice: Notice)

  /** The initial state for the `selectedDate` prop: no slot selected. */
  function InitialCalendar(selectedDate: int): CalendarState
  {
    CalendarState(selectedDate, None)
  }

  /** `handleDateChange`: any date is accepted and reported; the selected slot is kept. */
  function HandleDateChange(s: CalendarState, date: int): (r: Reaction)
    ensures r.state.selectedTimeSlot == s.selectedTimeSlot
    ensures r.state.currentDate == date && r.notice == DateChanged(date)
  {
    Reaction(s.(currentDate := date), DateChanged(date))
  }

  /** `handleTimeSlotSelect`: an available slot is selected and reported; any other press does nothing. */
  function HandleTimeSlotSelect(s: CalendarState, slot: TimeSlot): (r: Reaction)
    ensures r.state.currentDate == s.currentDate
    ensures slot.available ==> r.state.selectedTimeSlot == Some(slot) && r.notice == TimeSlotSelected(slot)
    ensures !slot.available ==> r == Reaction(s, Quiet)
  {
    if slot.available then Reaction(s.(selectedTimeSlot := Some(slot)), TimeSlotSelected(slot))
    else Reaction(s, Quiet)
  }

  /** The left arrow: go back a day unless that day is before `minDate`. */
  function PreviousDay(s: CalendarState, b: Bounds): (r: Reaction)
    ensures r.state.selectedTimeSlot == s.selectedTimeSlot
    ensures r.notice != Quiet ==> b.minDate <= r.state.currentDate < s.currentDate
    ensures r.notice == Quiet ==> r.state == s
  {
    var prevDay := s.currentDate - DayLength;
    if prevDay >= b.minDate then HandleDateChange(s, prevDay) else Reaction(s, Quiet)
  }

  /** The right arrow: go forward a day unless that day is after `maxDate`. */
  function NextDay(s: CalendarState, b: Bounds): (r: Reaction)
    ensures r.state.selectedTimeSlot == s.selectedTimeSlot
    ensures r.notice != Quiet ==> s.currentDate < r.state.currentDate <= b.maxDate
    ensures r.notice == Quiet ==> r.state == s
  {
    var nextDay := s.currentDate + DayLength;
    if nextDay <= b.maxDate then HandleDateChange(s, nextDay) else Reaction(s, Quiet)
  }

  /** The inputs of the picker. */
  datatype CalendarAction =
    | PickDate(date: int)        // the calendar widget's own date choice
    | PreviousPressed
    | NextPressed
    | SlotPressed(slot: TimeSlot)

  /**
    One input of the picker: the widget's date choice, an arrow, or a slot
    press. Only a slot press can report a slot, and only a date choice or an
    arrow can move the date.
   */
  function Step(s: CalendarState, b: Bounds, a: CalendarAction): (r: Reaction)
    ensures r.notice.TimeSlotSelected? ==> a.SlotPressed? && r.notice.slot == a.slot
    ensures r.state.currentDate != s.currentDate ==> !a.SlotPressed?
  {
    match a
    case PickDate(d) => HandleDateChange(s, d)
    case PreviousPressed => PreviousDay(s, b)
    case NextPressed => NextDay(s, b)
    case SlotPressed(slot) => HandleTimeSlotSelect(s, slot)
  }

  /** The final state and the notices of a sequence of inputs, one notice per input. */
  function Steps(s: CalendarState, b: Bounds, actions: seq<CalendarAction>): (r: (CalendarState, seq<Notice>))
    ensures |r.1| == |actions|
    ensures forall i :: 0 <= i < |actions| && r.1[i].TimeSlotSelected? ==> actions[i].SlotPressed?
    decreases |actions|
  {
    if actions == [] then (s, [])
    else
      var r := Step(s, b, actions[0]);
      var rest := Steps(r.state, b, actions[1..]);
      (rest.0, [r.notice] + rest.1)
  }

  /** The arrows move by exactly one day, and do so exactly when the new day is within the bound. */
  lemma ArrowsMoveOneDay(s: CalendarState, b: Bounds)
    ensures PreviousDay(s, b).state.currentDate ==
      if s.currentDate - DayLength >= b.minDate then s.currentDate - DayLength else s.currentDate
    ensures NextDay(s, b).state.currentDate ==
      if s.currentDate + DayLength <= b.maxDate then s.currentDate + DayLength else s.currentDate
    ensures PreviousDay(s, b).state.selectedTimeSlot == s.selectedTimeSlot
    ensures NextDay(s, b).state.selectedTimeSlot == s.selectedTimeSlot
    ensures PreviousDay(s, b).notice != Quiet <==> s.currentDate - DayLength >= b.minDate
    ensures NextDay(s, b).notice != Quiet <==> s.currentDate + DayLength <= b.maxDate
  {
  }

  /** A date inside `[minDate, maxDate]`. */
  predicate InBounds(d: int, b: Bounds)
  {
    b.minDate <= d <= b.maxDate
  }

  /** Any number of arrow presses keeps a date that starts inside the bounds inside them. */
  lemma {:induction false} ArrowsStayInBounds(s: CalendarState, b: Bounds, actions: seq<CalendarAction>)
    requires InBounds(s.currentDate, b)
    requires forall i :: 0 <= i < |actions| ==> actions[i] == PreviousPressed || actions[i] == NextPressed
    ensures InBounds(Steps(s, b, actions).0.currentDate, b)
    decreases |actions|
  {
    if actions != [] {
      ArrowsStayInBounds(Step(s, b, actions[0]).state, b, actions[1..]);
    }
  }

  /**
    `handleDateChange` itself checks no bounds, so one `PickDate` can leave
    the range; the widget's own limits are not modelled.
   */
  lemma PickDateIsUnchecked(s: CalendarState, b: Bounds, d: int)
    requires !InBounds(d, b)
    ensures !InBounds(Step(s, b, PickDate(d)).state.currentDate, b)
  {
  }

  /**
    Whatever the inputs, the stored selection is a slot record whose
    `available` flag was set when it was pressed, and every slot reported
    to the parent carried that flag. (The grid is redrawn on every render,
    so the same slot may later be drawn unavailable.)
   */
  lemma {:induction false} SelectionIsAvailable(s: CalendarState, b: Bounds, actions: seq<CalendarAction>)
    requires s.selectedTimeSlot.Some? ==> s.selectedTimeSlot.value.available
    ensures Steps(s, b, actions).0.selectedTimeSlot.Some? ==> Steps(s, b, actions).0.selectedTimeSlot.value.available
    ensures forall n :: n in Steps(s, b, actions).1 && n.TimeSlotSelected? ==> n.slot.available
    decreases |actions|
  {
    if actions != [] {
      SelectionIsAvailable(Step(s, b, actions[0]).state, b, actions[1..]);
    }
  }

  /** From the initial picker, whatever the inputs, a selected slot was available when it was pressed. */
  lemma InitialSelectionIsAvailable(selectedDate: int, b: Bounds, actions: seq<CalendarAction>)
    ensures InitialCalendar(selectedDate).selectedTimeSlot == None
    ensures var t := Steps(InitialCalendar(selectedDate), b, actions).0;
      t.selectedTimeSlot.Some? ==> t.selectedTimeSlot.value.available
  {
    SelectionIsAvailable(InitialCalendar(selectedDate), b, actions);
  }

  /** Pressing the same slot twice has the effect of pressing it once. */
  lemma SelectIdempotent(s: CalendarState, slot: TimeSlot)
    ensures HandleTimeSlotSelect(HandleTimeSlotSelect(s, slot).state, slot).state == HandleTimeSlotSelect(s, slot).state
  {
  }
}

=== FILE: booking_form.dfy ===
/**
  The booking form: its field record, its error record, `validateForm`,
  `updateFormData`, and the step machine driven by the form's buttons
  (1 personal information, 2 payment, 3 confirmed, 4 failed).

  The service's price and the outcome of the simulated submission are
  parameters: `paid` is `selectedService.price && selectedService.price > 0`,
  and a settling submission carries the `failed` bit that the random draw
  would have produced.
 */
module BookingForm {
  import opened Seqs
  import opened Strings
  import opened FormValidation
  import opened CountryPicker

  // ---------------------------------------------------------------- form data

  /** The keys `updateFormData` is called with. */
  datatype Field =
    | FirstName | LastName | Email | Phone | CountryCode | Notes
    | PaymentMethod | CardNumber | CardExpiry | CardCvc

  /** `formData`. */
  datatype FormData = FormData(
    firstName: string, lastName: string, email: string, phone: string,
    countryCode: string, notes: string, paymentMethod: string,
    cardNumber: string, cardExpiry: string, cardCvc: string)
  {
    /** `formData[k]`. */
    function Get(k: Field): string
    {
      match k
      case FirstName => firstName
      case LastName => lastName
      case Email => email
      case Phone => phone
      case CountryCode => countryCode
      case Notes => notes
      case PaymentMethod => paymentMethod
      case CardNumber => cardNumber
      case CardExpiry => cardExpiry
      case CardCvc => cardCvc
    }

    /** `{ ...formData, [k]: v }`. */
    function Set(k: Field, v: string): (r: FormData)
      ensures r.Get(k) == v
      ensures forall j :: j != k ==> r.Get(j) == Get(j)
    {
      match k
      case FirstName => this.(firstName := v)
      case LastName => this.(lastName := v)
      case Email => this.(email := v)
      case Phone => this.(phone := v)
      case CountryCode => this.(countryCode := v)
      case Notes => this.(notes := v)
      case PaymentMethod => this.(paymentMethod := v)
      case CardNumber => this.(cardNumber := v)
      case CardExpiry => this.(cardExpiry := v)
      case CardCvc => this.(cardCvc := v)
    }
  }

  const InitialFormData := FormData("", "", "", "", "+1", "", "credit_card", "", "", "")

  /** `errors`: one message per validated field, "" meaning no error. */
  datatype FormErrors = FormErrors(
    firstName: string, lastName: string, email: string, phone: string,
    cardNumber: string, cardExpiry: string, cardCvc: string)
  {
    /** `errors[k]`, where the keys without an entry read as "". */
    function Get(k: Field): string
    {
      match k
      case FirstName => firstName
      case LastName => lastName
      case Email => email
      case Phone => phone
      case CardNumber => cardNumber
      case CardExpiry => cardExpiry
      case CardCvc => cardCvc
      case _ => ""
    }

    /** `{ ...errors, [k]: "" }` for a key with an entry; the record itself otherwise. */
    function Clear(k: Field): (r: FormErrors)
      ensures r.Get(k) == ""
      ensures forall j :: j != k ==> r.Get(j) == Get(j)
    {
      match k
      case FirstName => this.(firstName := "")
      case LastName => this.(lastName := "")
      case Email => this.(email := "")
      case Phone => this.(phone := "")
      case CardNumber => this.(cardNumber := "")
      case CardExpiry => this.(cardExpiry := "")
      case CardCvc => this.(cardCvc := "")
      case _ => this
    }
  }

  const NoErrors := FormErrors("", "", "", "", "", "", "")

  const FirstNameRequired := "First name is required"
  const LastNameRequired := "Last name is required"
  const EmailRequired := "Email is required"
  const EmailInvalid := "Please enter a valid email address"
  const PhoneRequired := "Phone number is required"
  const PhoneInvalid := "Please enter a valid phone number"
  const CardNumberRequired := "Card number is required"
  const CardNumberInvalid := "Please enter a valid card number"
  const CardExpiryRequired := "Expiry date is required"
  const CardExpiryInvalid := "Please enter MM/YY format"
  const CardCvcRequired := "CVC is required"
  const CardCvcInvalid := "Please enter a valid CVC"

  // ---------------------------------------------------------------- validateForm

  /** `selectedService.price && selectedService.price > 0`: null and 0 are both free. */
  predicate IsPaid(price: Option<real>): (b: bool)
    ensures price == None || price == Some(0.0) ==> !b
    ensures forall x: real :: price == Some(x) && x > 0.0 ==> b
  {
    price.Some? && price.value > 0.0
  }

  /** The result of `validateForm`: the returned flag and the error record it stores. */
  datatype Validation = Validation(isValid: bool, errors: FormErrors)

  /**
    The message for one field: `required` when the value trims to "" (that
    is, when it is blank: see `TrimEmptyIffBlank`), `invalid` when the
    format check fails, and "" otherwise.
   */
  function FieldError(value: string, required: string, formatOk: bool, invalid: string): string
  {
    if IsBlank(value) then required else if !formatOk then invalid else ""
  }

  /**
    `validateForm`: a fresh error record with one message per failed check,
    and a flag that every failed check clears. The card fields are checked
    only for a paid service.
   */
  function ValidateForm(f: FormData, paid: bool): (v: Validation)
    ensures v.isValid <==> v.errors == NoErrors
  {
    var personalOk :=
      && !IsBlank(f.firstName)
      && !IsBlank(f.lastName)
      && !IsBlank(f.email) && ValidateEmail(f.email)
      && !IsBlank(f.phone) && ValidatePhone(f.countryCode + f.phone);
    var paymentOk :=
      && !IsBlank(f.cardNumber) && IsCardNumberLongEnough(f.cardNumber)
      && !IsBlank(f.cardExpiry) && IsExpiryFormat(f.cardExpiry)
      && !IsBlank(f.cardCvc) && IsCvcLongEnough(f.cardCvc);
    var errors := FormErrors(
      FieldError(f.firstName, FirstNameRequired, true, ""),
      FieldError(f.lastName, LastNameRequired, true, ""),
      FieldError(f.email, EmailRequired, ValidateEmail(f.email), EmailInvalid),
      FieldError(f.phone, PhoneRequired, ValidatePhone(f.countryCode + f.phone), PhoneInvalid),
      if paid then FieldError(f.cardNumber, CardNumberRequired, IsCardNumberLongEnough(f.cardNumber), CardNumberInvalid) else "",
      if paid then FieldError(f.cardExpiry, CardExpiryRequired, IsExpiryFormat(f.cardExpiry), CardExpiryInvalid) else "",
      if paid then FieldError(f.cardCvc, CardCvcRequired, IsCvcLongEnough(f.cardCvc), CardCvcInvalid) else "");
    Validation(personalOk && (!paid || paymentOk), errors)
  }

  /**
    The personal fields' messages, stated through the reference predicates:
    a field is "required" exactly when it is blank, and only a non-blank
    value is format-checked, the email against the regular expression and
    the phone by the digit count of country code and number together.
   */
  lemma PersonalFieldErrors(f: FormData, paid: bool)
    ensures ValidateForm(f, paid).errors.firstName == (if IsBlank(f.firstName) then FirstNameRequired else "")
    ensures ValidateForm(f, paid).errors.lastName == (if IsBlank(f.lastName) then LastNameRequired else "")
    ensures ValidateForm(f, paid).errors.email ==
      (if IsBlank(f.email) then EmailRequired
       else if !MatchesEmailPattern(f.email) then EmailInvalid else "")
    ensures ValidateForm(f, paid).errors.phone ==
      (if IsBlank(f.phone) then PhoneRequired
       else if !(7 <= DigitCount(f.countryCode + f.phone) <= 15) then PhoneInvalid else "")
  {
    ValidateEmailMatchesPattern(f.email);
    ValidatePhoneCountsDigits(f.countryCode + f.phone);
  }

  /**
    A paid service adds the card checks and changes nothing else: the
    personal messages are the same as for a free service, and the form is
    valid exactly when it would be valid for a free service and all three
    card fields are filled in and pass their checks. Each card field is
    "required" exactly when blank, and only a non-blank value is checked.
   */
  lemma PaidAddsCardChecks(f: FormData)
    ensures ValidateForm(f, true).errors.(cardNumber := "", cardExpiry := "", cardCvc := "") == ValidateForm(f, false).errors
    ensures ValidateForm(f, true).isValid <==>
      && ValidateForm(f, false).isValid
      && !IsBlank(f.cardNumber) && IsCardNumberLongEnough(f.cardNumber)
      && !IsBlank(f.cardExpiry) && IsExpiryFormat(f.cardExpiry)
      && !IsBlank(f.cardCvc) && IsCvcLongEnough(f.cardCvc)
    ensures ValidateForm(f, true).errors.cardNumber ==
      (if IsBlank(f.cardNumber) then CardNumberRequired
       else if !IsCardNumberLongEnough(f.cardNumber) then CardNumberInvalid else "")
    ensures ValidateForm(f, true).errors.cardExpiry ==
      (if IsBlank(f.cardExpiry) then CardExpiryRequired
       else if !IsExpiryFormat(f.cardExpiry) then CardExpiryInvalid else "")
    ensures ValidateForm(f, true).errors.cardCvc ==
      (if IsBlank(f.cardCvc) then CardCvcRequired
       else if !IsCvcLongEnough(f.cardCvc) then CardCvcInvalid else "")
  {
  }

  /**
    Each check writes only its own field's message: two forms that agree on
    field `k` (and, for the phone, on the country code) get the same message
    for `k`.
   */
  lemma ErrorsAreLocal(f: FormData, g: FormData, paid: bool, k: Field)
    requires f.Get(k) == g.Get(k)
    requires k == Phone ==> f.countryCode == g.countryCode
    ensures ValidateForm(f, paid).errors.Get(k) == ValidateForm(g, paid).errors.Get(k)
  {
    if k == Email {
      assert f.email == g.email;
    }
  }

  /** For a free service the card fields neither produce messages nor affect the verdict. */
  lemma FreeServiceIgnoresCard(f: FormData, number: string, expiry: string, cvc: string)
    ensures ValidateForm(f, false) == ValidateForm(f.(cardNumber := number, cardExpiry := expiry, cardCvc := cvc), false)
  {
  }

  /** A blank form is refused with every personal field marked "required". */
  lemma BlankFormRefused(paid: bool)
    ensures !ValidateForm(InitialFormData, paid).isValid
    ensures ValidateForm(InitialFormData, paid).errors.firstName == FirstNameRequired
    ensures ValidateForm(InitialFormData, paid).errors.lastName == LastNameRequired
    ensures ValidateForm(InitialFormData, paid).errors.email == EmailRequired
    ensures ValidateForm(InitialFormData, paid).errors.phone == PhoneRequired
  {
  }

  // ---------------------------------------------------------------- state and updateFormData

  /**
    The component's state. `pending` holds, oldest first, the form data
    captured by each submission whose timer has not fired yet.
   */
  datatype FormState = FormState(
    currentStep: int,
    isLoading: bool,
    formData: FormData,
    errors: FormErrors,
    showCountryPicker: bool,
    countrySearchQuery: string,
    pending: seq<FormData>)

  const InitialState := FormState(1, false, InitialFormData, NoErrors, false, "", [])

  /** `updateFormData(k, v)`: field `k` becomes `v` and its error, if it has one, is cleared. */
  function UpdateFormData(s: FormState, k: Field, v: string): (r: FormState)
    ensures r.formData.Get(k) == v
    ensures forall j :: j != k ==> r.formData.Get(j) == s.formData.Get(j)
    ensures r.errors.Get(k) == ""
    ensures forall j :: j != k ==> r.errors.Get(j) == s.errors.Get(j)
    ensures r.(formData := s.formData, errors := s.errors) == s
  {
    var errors := if s.errors.Get(k) != "" then s.errors.Clear(k) else s.errors;
    s.(formData := s.formData.Set(k, v), errors := errors)
  }

  // ---------------------------------------------------------------- step machine

  datatype Status = Success | Error

  /** What the form reports to its parent. */
  datatype Effect =
    | NoEffect
    | CallsOnSubmit(data: FormData, status: Status)
    | CallsOnBack

  /** A user action, or the simulated submission's timer firing. */
  datatype Action =
    | PrimaryPressed                    // "Proceed to Payment" / "Confirm Booking" on step 1
    | PayPressed                        // "Pay & Confirm" on step 2
    | BackToPersonalInfo                // step 2
    | BackToTimeSelection               // step 1
    | BookAnother | ReturnHome          // step 3
    | TryAgain | StartOver              // step 4
    | Edit(field: Field, value: string) // a text input of the current step
    | OpenCountryPicker                 // step 1
    | CloseCountryPicker
    | SearchCountries(query: string)
    | PickCountry(country: Country)     // a country chosen in the picker (any country)
    | SubmissionSettles(failed: bool)   // the timer of the oldest pending submission

  datatype Transition = Transition(state: FormState, effect: Effect)

  /** The text inputs shown on each step. */
  predicate EditableOn(k: Field, step: int): (b: bool)
    ensures b ==> step == 1 || step == 2
    ensures b && step == 2 <==> b && k in {CardNumber, CardExpiry, CardCvc}
    ensures k in {CountryCode, PaymentMethod} ==> !b
  {
    (step == 1 && k in {FirstName, LastName, Email, Phone, Notes})
    || (step == 2 && k in {CardNumber, CardExpiry, CardCvc})
  }

  /**
    `handleSubmit` when pressed: validate and store the errors; on success,
    start loading and schedule the settling of a submission of the current
    form data. The step does not change here.
   */
  function HandleSubmit(s: FormState, paid: bool): (r: FormState)
    ensures r.currentStep == s.currentStep && r.formData == s.formData
    ensures r.errors == ValidateForm(s.formData, paid).errors
    ensures ValidateForm(s.formData, paid).isValid ==> r.isLoading && r.pending == s.pending + [s.formData]
    ensures !ValidateForm(s.formData, paid).isValid ==> r.isLoading == s.isLoading && r.pending == s.pending
    ensures r.(errors := s.errors, isLoading := s.isLoading, pending := s.pending) == s
  {
    var v := ValidateForm(s.formData, paid);
    var s' := s.(errors := v.errors);
    if !v.isValid then s'
    else s'.(isLoading := true, pending := s.pending + [s.formData])
  }

  /**
    "Proceed to Payment" as written: the whole of `validateForm` runs, and
    for a paid service that includes the card fields, which are only shown
    on step 2. The step advances only when they pass too.
   */
  function ProceedToPaymentAsWritten(s: FormState): (r: FormState)
    ensures r.currentStep == if ValidateForm(s.formData, true).isValid then 2 else s.currentStep
    ensures r.errors == ValidateForm(s.formData, true).errors
    ensures r.(currentStep := s.currentStep, errors := s.errors) == s
  {
    var v := ValidateForm(s.formData, true);
    var s' := s.(errors := v.errors);
    if v.isValid then s'.(currentStep := 2) else s'
  }

  /**
    "Proceed to Payment" as evidently intended: only the fields shown on
    step 1 are checked before moving on; the card fields are checked by
    "Pay & Confirm" on step 2.
   */
  function ProceedToPayment(s: FormState): (r: FormState)
    ensures r.currentStep == if ValidateForm(s.formData, false).isValid then 2 else s.currentStep
    ensures r.errors == ValidateForm(s.formData, false).errors
    ensures r.(currentStep := s.currentStep, errors := s.errors) == s
  {
    var v := ValidateForm(s.formData, false);
    var s' := s.(errors := v.errors);
    if v.isValid then s'.(currentStep := 2) else s'
  }

  /**
    One step of the form: `paid` is the service's price test. "Proceed to
    Payment" uses the intended step-1 check (`ProceedToPayment`); the form
    as written is `NextAsWritten`. Only the timer reports a submission, and
    it reports the oldest captured data; only the back and reset buttons
    call `onBack`; only edits and the picker change the form data; only
    the submit buttons and the timer change the pending submissions.
   */
  function Next(s: FormState, paid: bool, a: Action): (t: Transition)
    ensures t.effect.CallsOnSubmit? ==> a.SubmissionSettles? && s.pending != [] && t.effect.data == s.pending[0]
    ensures t.effect == CallsOnBack ==> a in {BackToTimeSelection, BookAnother, ReturnHome, StartOver}
    ensures t.state.formData != s.formData ==> a.Edit? || a.PickCountry?
    ensures t.state.pending != s.pending ==> a.PrimaryPressed? || a.PayPressed? || a.SubmissionSettles?
  {
    var step := s.currentStep;
    match a
    case PrimaryPressed =>
      if step != 1 then Transition(s, NoEffect)
      else if paid then Transition(ProceedToPayment(s), NoEffect)
      else Transition(HandleSubmit(s, paid), NoEffect)
    case PayPressed =>
      if step == 2 && !s.isLoading then Transition(HandleSubmit(s, paid), NoEffect)
      else Transition(s, NoEffect)
    case BackToPersonalInfo =>
      if step == 2 && !s.isLoading then Transition(s.(currentStep := 1), NoEffect)
      else Transition(s, NoEffect)
    case BackToTimeSelection =>
      if step == 1 then Transition(s, CallsOnBack) else Transition(s, NoEffect)
    case BookAnother =>
      if step == 3 then Transition(s.(currentStep := 1), CallsOnBack) else Transition(s, NoEffect)
    case ReturnHome =>
      if step == 3 then Transition(s.(currentStep := 1), CallsOnBack) else Transition(s, NoEffect)
    case TryAgain =>
      if step == 4 then Transition(s.(currentStep := 1), NoEffect) else Transition(s, NoEffect)
    case StartOver =>
      if step == 4 then Transition(s.(currentStep := 1), CallsOnBack) else Transition(s, NoEffect)
    case Edit(k, value) =>
      if EditableOn(k, step) then Transition(UpdateFormData(s, k, value), NoEffect)
      else Transition(s, NoEffect)
    case OpenCountryPicker =>
      if step == 1 then Transition(s.(showCountryPicker := true), NoEffect) else Transition(s, NoEffect)
    case CloseCountryPicker =>
      Transition(s.(showCountryPicker := false), NoEffect)
    case SearchCountries(q) =>
      if s.showCountryPicker then Transition(s.(countrySearchQuery := q), NoEffect)
      else Transition(s, NoEffect)
    case PickCountry(c) =>
      if s.showCountryPicker then
        var s' := UpdateFormData(s, CountryCode, c.code);
        Transition(s'.(showCountryPicker := false, countrySearchQuery := ""), NoEffect)
      else Transition(s, NoEffect)
    case SubmissionSettles(failed) =>
      if s.pending == [] then Transition(s, NoEffect)
      else
        var s' := s.(isLoading := false, currentStep := if failed then 4 else 3, pending := s.pending[1..]);
        Transition(s', CallsOnSubmit(s.pending[0], if failed then Error else Success))
  }

  /** The state after a sequence of actions, with the effects they produced in order, one per action. */
  function Run(s: FormState, paid: bool, actions: seq<Action>): (r: (FormState, seq<Effect>))
    ensures |r.1| == |actions|
    decreases |actions|
  {
    if actions == [] then (s, [])
    else
      var t := Next(s, paid, actions[0]);
      var rest := Run(t.state, paid, actions[1..]);
      (rest.0, [t.effect] + rest.1)
  }

  /**
    The form as written: "Proceed to Payment" runs the full validation. It
    differs from the intended form only in the step it moves to and the
    errors it stores.
   */
  function NextAsWritten(s: FormState, paid: bool, a: Action): (t: Transition)
    ensures t.effect == Next(s, paid, a).effect
    ensures t.state.(currentStep := s.currentStep, errors := s.errors)
      == Next(s, paid, a).state.(currentStep := s.currentStep, errors := s.errors)
  {
    if a == PrimaryPressed && s.currentStep == 1 && paid then Transition(ProceedToPaymentAsWritten(s), NoEffect)
    else Next(s, paid, a)
  }

  function RunAsWritten(s: FormState, paid: bool, actions: seq<Action>): (r: (FormState, seq<Effect>))
    ensures |r.1| == |actions|
    decreases |actions|
  {
    if actions == [] then (s, [])
    else
      var t := NextAsWritten(s, paid, actions[0]);
      var rest := RunAsWritten(t.state, paid, actions[1..]);
      (rest.0, [t.effect] + rest.1)
  }

  // ---------------------------------------------------------------- machine properties

  /**
    What every reachable state satisfies: the step is one of the four, the
    payment step is only ever shown for a paid service, loading implies a
    submission is pending, and every pending submission passed validation.
   */
  predicate Invariant(s: FormState, paid: bool)
  {
    && 1 <= s.currentStep <= 4
    && (s.currentStep == 2 ==> paid)
    && (s.isLoading ==> s.pending != [])
    && AllPassValidation(s.pending, paid)
  }

  /** Every form data in `ds` passes `validateForm`. */
  predicate AllPassValidation(ds: seq<FormData>, paid: bool)
  {
    forall i :: 0 <= i < |ds| ==> ValidateForm(ds[i], paid).isValid
  }

  lemma InitialSatisfiesInvariant(paid: bool)
    ensures Invariant(InitialState, paid)
  {
  }

  lemma NextPreservesInvariant(s: FormState, paid: bool, a: Action)
    requires Invariant(s, paid)
    ensures Invariant(Next(s, paid, a).state, paid)
    ensures Next(s, paid, a).effect.CallsOnSubmit? ==> ValidateForm(Next(s, paid, a).effect.data, paid).isValid
  {
    match a
    case PrimaryPressed =>
      if s.currentStep == 1 && !paid {
        HandleSubmitKeepsInvariant(s, paid);
      }
    case PayPressed =>
      if s.currentStep == 2 && !s.isLoading {
        HandleSubmitKeepsInvariant(s, paid);
      }
    case SubmissionSettles(failed) =>
      SettlingKeepsInvariant(s, paid, failed);
    case _ =>
      OtherActionsKeepSubmissions(s, paid, a);
  }

  /**
    Helper: every action other than the two submit buttons and the timer
    leaves the pending submissions and the loading flag alone, moves at most
    back to step 1, and reports no submission.
   */
  lemma OtherActionsKeepSubmissions(s: FormState, paid: bool, a: Action)
    requires !a.PrimaryPressed? && !a.PayPressed? && !a.SubmissionSettles?
    ensures Next(s, paid, a).state.pending == s.pending
    ensures Next(s, paid, a).state.isLoading == s.isLoading
    ensures Next(s, paid, a).state.currentStep == s.currentStep || Next(s, paid, a).state.currentStep == 1
    ensures !Next(s, paid, a).effect.CallsOnSubmit?
  {
  }

  /** Helper: a settling submission drops the oldest pending data, which passed validation. */
  lemma SettlingKeepsInvariant(s: FormState, paid: bool, failed: bool)
    requires Invariant(s, paid)
    ensures Invariant(Next(s, paid, SubmissionSettles(failed)).state, paid)
    ensures Next(s, paid, SubmissionSettles(failed)).effect.CallsOnSubmit? ==>
      ValidateForm(Next(s, paid, SubmissionSettles(failed)).effect.data, paid).isValid
  {
    if s.pending != [] {
      assert ValidateForm(s.pending[0], paid).isValid;
      assert forall i :: 0 <= i < |s.pending[1..]| ==> s.pending[1..][i] == s.pending[i + 1];
    }
  }

  /** Helper: a submission only queues data that has just passed validation. */
  lemma HandleSubmitKeepsInvariant(s: FormState, paid: bool)
    requires Invariant(s, paid)
    ensures Invariant(HandleSubmit(s, paid), paid)
  {
    if ValidateForm(s.formData, paid).isValid {
      assert AllPassValidation(s.pending + [s.formData], paid);
    }
  }

  /**
    Along any run from the initial state the invariant holds, and the parent
    is only ever handed form data that passed validation.
   */
  lemma {:induction false} RunPreservesInvariant(s: FormState, paid: bool, actions: seq<Action>)
    requires Invariant(s, paid)
    ensures Invariant(Run(s, paid, actions).0, paid)
    ensures forall e :: e in Run(s, paid, actions).1 && e.CallsOnSubmit? ==> ValidateForm(e.data, paid).isValid
    decreases |actions|
  {
    if actions != [] {
      NextPreservesInvariant(s, paid, actions[0]);
      RunPreservesInvariant(Next(s, paid, actions[0]).state, paid, actions[1..]);
    }
  }

  /**
    The form as written keeps the same invariant: its "Proceed to Payment"
    moves to step 2 only for a paid service and queues nothing.
   */
  lemma NextAsWrittenPreservesInvariant(s: FormState, paid: bool, a: Action)
    requires Invariant(s, paid)
    ensures Invariant(NextAsWritten(s, paid, a).state, paid)
    ensures NextAsWritten(s, paid, a).effect.CallsOnSubmit? ==> ValidateForm(NextAsWritten(s, paid, a).effect.data, paid).isValid
  {
    NextPreservesInvariant(s, paid, a);
    if a == PrimaryPressed && s.currentStep == 1 && paid {
      assert NextAsWritten(s, paid, a).state.pending == s.pending;
    }
  }

  /** Along any run of the form as written the invariant holds, and `onSubmit` only receives validated data. */
  lemma {:induction false} RunAsWrittenPreservesInvariant(s: FormState, paid: bool, actions: seq<Action>)
    requires Invariant(s, paid)
    ensures Invariant(RunAsWritten(s, paid, actions).0, paid)
    ensures forall e :: e in RunAsWritten(s, paid, actions).1 && e.CallsOnSubmit? ==> ValidateForm(e.data, paid).isValid
    decreases |actions|
  {
    if actions != [] {
      NextAsWrittenPreservesInvariant(s, paid, actions[0]);
      RunAsWrittenPreservesInvariant(NextAsWritten(s, paid, actions[0]).state, paid, actions[1..]);
    }
  }

  /** Free services skip payment: no run from the initial state ever shows step 2. */
  lemma FreeServiceSkipsPayment(actions: seq<Action>)
    ensures Run(InitialState, false, actions).0.currentStep != 2
  {
    RunPreservesInvariant(InitialState, false, actions);
  }

  /**
    From step 1 a paid service moves to step 2 exactly when the fields of
    step 1 pass, and stays on step 1 otherwise; nothing is submitted yet.
   */
  lemma ProceedWithPaidService(s: FormState)
    requires s.currentStep == 1
    ensures Next(s, true, PrimaryPressed).state.currentStep == if ValidateForm(s.formData, false).isValid then 2 else 1
    ensures Next(s, true, PrimaryPressed).state.formData == s.formData
    ensures Next(s, true, PrimaryPressed).state.pending == s.pending
    ensures Next(s, true, PrimaryPressed).effect == NoEffect
  {
  }

  /**
    As written, the same button moves a paid service to step 2 only when the
    card fields pass as well.
   */
  lemma ProceedWithPaidServiceAsWritten(s: FormState)
    requires s.currentStep == 1
    ensures NextAsWritten(s, true, PrimaryPressed).state.currentStep == if ValidateForm(s.formData, true).isValid then 2 else 1
    ensures NextAsWritten(s, true, PrimaryPressed).state.formData == s.formData
    ensures NextAsWritten(s, true, PrimaryPressed).state.pending == s.pending
  {
  }

  /** A state of a paid booking that has never left step 1: the card number is still empty and nothing is pending. */
  predicate StuckBeforePayment(s: FormState)
  {
    s.currentStep == 1 && s.formData.cardNumber == "" && s.pending == []
  }

  /** Helper: one action of the form as written keeps a paid booking stuck before payment. */
  lemma AsWrittenStepKeepsStuck(s: FormState, a: Action)
    requires StuckBeforePayment(s)
    ensures StuckBeforePayment(NextAsWritten(s, true, a).state)
    ensures !NextAsWritten(s, true, a).effect.CallsOnSubmit?
  {
    if a == PrimaryPressed {
      assert IsBlank(s.formData.cardNumber);
    }
  }

  /**
    As written, a paid booking can never be made: the card number can only
    be typed on step 2, and step 2 can only be reached with a card number,
    so every run from the initial form stays on step 1 and never submits.
   */
  lemma {:induction false} AsWrittenPaidStuckOnStepOne(s: FormState, actions: seq<Action>)
    requires StuckBeforePayment(s)
    ensures StuckBeforePayment(RunAsWritten(s, true, actions).0)
    ensures forall e :: e in RunAsWritten(s, true, actions).1 ==> !e.CallsOnSubmit?
    decreases |actions|
  {
    if actions != [] {
      AsWrittenStepKeepsStuck(s, actions[0]);
      AsWrittenPaidStuckOnStepOne(NextAsWritten(s, true, actions[0]).state, actions[1..]);
    }
  }

  /**
    With the intended check, filling in valid personal details and pressing
    "Proceed to Payment" reaches the payment step of a paid booking.
   */
  lemma PaidReachesPayment(first: string, last: string, email: string, phone: string)
    requires ValidateForm(InitialFormData.(firstName := first, lastName := last, email := email, phone := phone), false).isValid
    ensures Run(InitialState, true, [Edit(FirstName, first), Edit(LastName, last), Edit(Email, email), Edit(Phone, phone), PrimaryPressed]).0.currentStep == 2
  {
    var s1 := InitialState.(formData := InitialFormData.(firstName := first));
    var s2 := s1.(formData := s1.formData.(lastName := last));
    var s3 := s2.(formData := s2.formData.(email := email));
    var s4 := s3.(formData := s3.formData.(phone := phone));
    EditStep(InitialState, FirstName, first, s1, [Edit(LastName, last), Edit(Email, email), Edit(Phone, phone), PrimaryPressed]);
    EditStep(s1, LastName, last, s2, [Edit(Email, email), Edit(Phone, phone), PrimaryPressed]);
    EditStep(s2, Email, email, s3, [Edit(Phone, phone), PrimaryPressed]);
    EditStep(s3, Phone, phone, s4, [PrimaryPressed]);
    assert Run(s4, true, [PrimaryPressed]).0 == ProceedToPayment(s4);
  }

  /** Helper: an edit of an empty, error-free field of step 1 stores the value and leaves the rest of the run to the new state. */
  lemma EditStep(s: FormState, k: Field, v: string, t: FormState, rest: seq<Action>)
    requires s.currentStep == 1 && k in {FirstName, LastName, Email, Phone}
    requires s.errors == NoErrors
    requires t == s.(formData := s.formData.Set(k, v))
    ensures Run(s, true, [Edit(k, v)] + rest).0 == Run(t, true, rest).0
  {
    assert ([Edit(k, v)] + rest)[1..] == rest;
  }

  /** From step 1 a free service submits directly: a valid form is queued for submission, an invalid one is not. */
  lemma ProceedWithFreeService(s: FormState)
    requires s.currentStep == 1
    ensures Next(s, false, PrimaryPressed).state.currentStep == 1
    ensures Next(s, false, PrimaryPressed).state.pending ==
      if ValidateForm(s.formData, false).isValid then s.pending + [s.formData] else s.pending
  {
  }

  /**
    Submitting an invalid form ("Confirm Booking" for a free service, "Pay &
    Confirm" for a paid one) leaves the step and the pending submissions
    unchanged and reports nothing.
   */
  lemma InvalidSubmitKeepsStep(s: FormState, paid: bool, a: Action)
    requires (a == PrimaryPressed && !paid) || a == PayPressed
    requires !ValidateForm(s.formData, paid).isValid
    ensures Next(s, paid, a).state.currentStep == s.currentStep
    ensures Next(s, paid, a).state.pending == s.pending
    ensures Next(s, paid, a).effect == NoEffect
  {
  }

  /** A settling submission lands on step 4 when it failed and on step 3 otherwise, and reports the data it captured. */
  lemma SettledSubmissionLands(s: FormState, paid: bool, failed: bool)
    requires s.pending != []
    ensures Next(s, paid, SubmissionSettles(failed)).state.currentStep in {3, 4}
    ensures Next(s, paid, SubmissionSettles(failed)).state.currentStep == 4 <==> failed
    ensures Next(s, paid, SubmissionSettles(failed)).effect.CallsOnSubmit?
    ensures Next(s, paid, SubmissionSettles(failed)).effect.data == s.pending[0]
    ensures Next(s, paid, SubmissionSettles(failed)).effect.status == if failed then Error else Success
    ensures !Next(s, paid, SubmissionSettles(failed)).state.isLoading
  {
  }

  /**
    The back and reset buttons change only the step: 2 -> 1, 3 -> 1 and
    4 -> 1 keep the form data, the errors and everything else.
   */
  lemma BackChangesOnlyStep(s: FormState, paid: bool, a: Action)
    requires
      || (a == BackToPersonalInfo && s.currentStep == 2 && !s.isLoading)
      || ((a == BookAnother || a == ReturnHome) && s.currentStep == 3)
      || ((a == TryAgain || a == StartOver) && s.currentStep == 4)
    ensures Next(s, paid, a).state == s.(currentStep := 1)
    ensures Next(s, paid, a).state.formData == s.formData
  {
  }

  /** Picking a country stores its dialling code, clears the search and closes the picker; no other field changes. */
  lemma PickCountrySetsCode(s: FormState, paid: bool, c: Country)
    requires s.showCountryPicker
    ensures Next(s, paid, PickCountry(c)).state.formData.countryCode == c.code
    ensures Next(s, paid, PickCountry(c)).state.countrySearchQuery == ""
    ensures !Next(s, paid, PickCountry(c)).state.showCountryPicker
    ensures forall k :: k != CountryCode ==> Next(s, paid, PickCountry(c)).state.formData.Get(k) == s.formData.Get(k)
    ensures Next(s, paid, PickCountry(c)).state.currentStep == s.currentStep
  {
  }

  /** The progress bar is drawn while `currentStep < 3`. */
  predicate ShowsProgressBar(s: FormState)
  {
    s.currentStep < 3
  }

  /** In every reachable state the progress bar is shown exactly on the two data-entry steps. */
  lemma ProgressBarOnEntrySteps(s: FormState, paid: bool)
    requires Invariant(s, paid)
    ensures ShowsProgressBar(s) <==> s.currentStep in {1, 2}
  {
  }
}

=== FILE: booking_page.dfy ===
/**
  The booking page: a three-step wizard (1 select service, 2 choose time,
  3 your details) that mounts one child per step and reacts to the child's
  callbacks. The service and slot types are left abstract (`S`, `T`): the
  page only stores them.

  The page hands its handlers to the children under prop names. Two of
  those names are not props the children declare, so as written the
  children never call them; `DispatchAsWritten` models that wiring and
  `Dispatch` the evidently intended one.
 */
module BookingPage {
  import opened Seqs

  /** `currentStep`, `selectedService`, `selectedTimeSlot`. */
  datatype Page<S, T> = Page(currentStep: int, selectedService: Option<S>, selectedTimeSlot: Option<T>)

  function InitialPage<S, T>(): Page<S, T>
  {
    Page(1, None, None)
  }

  /** `handleServiceSelect`: store the service and show the calendar. */
  function HandleServiceSelect<S, T>(p: Page<S, T>, service: S): (r: Page<S, T>)
    ensures r.currentStep == 2 && r.selectedService == Some(service)
    ensures r.selectedTimeSlot == p.selectedTimeSlot
  {
    p.(selectedService := Some(service), currentStep := 2)
  }

  /** `handleTimeSlotSelect`: store the slot and show the form. */
  function HandleTimeSlotSelect<S, T>(p: Page<S, T>, slot: T): (r: Page<S, T>)
    ensures r.currentStep == 3 && r.selectedTimeSlot == Some(slot)
    ensures r.selectedService == p.selectedService
  {
    p.(selectedTimeSlot := Some(slot), currentStep := 3)
  }

  /** `handleBookingComplete`: back to the start with nothing selected (the alert is left out). */
  function HandleBookingComplete<S, T>(p: Page<S, T>): (r: Page<S, T>)
    ensures r == InitialPage()
  {
    p.(currentStep := 1, selectedService := None, selectedTimeSlot := None)
  }

  /** `handleBack`: one step back, except on the first step; the selections are kept. */
  function HandleBack<S, T>(p: Page<S, T>): (r: Page<S, T>)
    ensures p.currentStep > 1 ==> r.currentStep == p.currentStep - 1
    ensures p.currentStep <= 1 ==> r == p
    ensures r.selectedService == p.selectedService && r.selectedTimeSlot == p.selectedTimeSlot
  {
    if p.currentStep > 1 then p.(currentStep := p.currentStep - 1) else p
  }

  /** Progress dot `k` (and the bar leading to it) is drawn blue when `currentStep >= k`. */
  predicate DotLit<S, T>(p: Page<S, T>, k: int)
  {
    p.currentStep >= k
  }

  // ---------------------------------------------------------------- children's callbacks

  /**
    What the mounted child reports: the service list a choice, the calendar
    a slot, the form its back button or the end of a submission.
   */
  datatype Event<S, T> = ServiceChosen(service: S) | SlotChosen(slot: T) | FormBack | FormCompleted

  /**
    The page with each child wired to the handler meant for it: the service
    list on step 1, the calendar on step 2 and the form on step 3. A choice
    or a back press from a child that is not mounted changes nothing. The
    form's completion is taken on any step: the timer of a submission keeps
    running after the form's back button unmounts it, so a late completion
    still resets the page.
   */
  function Dispatch<S, T>(p: Page<S, T>, e: Event<S, T>): (r: Page<S, T>)
    ensures r.selectedService != p.selectedService ==> e.ServiceChosen? || e.FormCompleted?
    ensures r.selectedTimeSlot != p.selectedTimeSlot ==> e.SlotChosen? || e.FormCompleted?
  {
    match e
    case ServiceChosen(s) => if p.currentStep == 1 then HandleServiceSelect(p, s) else p
    case SlotChosen(t) => if p.currentStep == 2 then HandleTimeSlotSelect(p, t) else p
    case FormBack => if p.currentStep == 3 then HandleBack(p) else p
    case FormCompleted => HandleBookingComplete(p)
  }

  /**
    The page as wired: the calendar is given `onSelectTimeSlot` and the form
    `onComplete`, neither of which they declare, so a chosen slot and a
    completed booking never reach the page.
   */
  function DispatchAsWritten<S, T>(p: Page<S, T>, e: Event<S, T>): (r: Page<S, T>)
    ensures r.selectedTimeSlot == p.selectedTimeSlot
    ensures r.currentStep == 3 ==> p.currentStep == 3
  {
    match e
    case SlotChosen(_) => p
    case FormCompleted => p
    case _ => Dispatch(p, e)
  }

  /**
    The page after a sequence of callbacks under the intended wiring: the
    selected service moves only on a service choice or a completion, and the
    slot only on a slot choice or a completion.
   */
  function Run<S, T>(p: Page<S, T>, events: seq<Event<S, T>>): (r: Page<S, T>)
    ensures (forall i :: 0 <= i < |events| ==> !events[i].ServiceChosen? && !events[i].FormCompleted?) ==>
      r.selectedService == p.selectedService
    ensures (forall i :: 0 <= i < |events| ==> !events[i].SlotChosen? && !events[i].FormCompleted?) ==>
      r.selectedTimeSlot == p.selectedTimeSlot
    decreases |events|
  {
    if events == [] then p else Run(Dispatch(p, events[0]), events[1..])
  }

  /**
    The page after a sequence of callbacks as wired: the slot never changes
    and step 3 is never reached from another step.
   */
  function RunAsWritten<S, T>(p: Page<S, T>, events: seq<Event<S, T>>): (r: Page<S, T>)
    ensures r.selectedTimeSlot == p.selectedTimeSlot
    ensures r.currentStep == 3 ==> p.currentStep == 3
    decreases |events|
  {
    if events == [] then p else RunAsWritten(DispatchAsWritten(p, events[0]), events[1..])
  }

  // ---------------------------------------------------------------- properties of the intended wiring

  /**
    What every reachable page satisfies: the step is one of the three, a
    service is selected from step 2 on, and a slot on step 3.
   */
  predicate Invariant<S, T>(p: Page<S, T>)
  {
    && 1 <= p.currentStep <= 3
    && (p.currentStep >= 2 ==> p.selectedService.Some?)
    && (p.currentStep == 3 ==> p.selectedTimeSlot.Some?)
  }

  lemma DispatchPreservesInvariant<S, T>(p: Page<S, T>, e: Event<S, T>)
    requires Invariant(p)
    ensures Invariant(Dispatch(p, e))
  {
  }

  /** From the initial page, every sequence of callbacks keeps the invariant. */
  lemma {:induction false} RunPreservesInvariant<S, T>(p: Page<S, T>, events: seq<Event<S, T>>)
    requires Invariant(p)
    ensures Invariant(Run(p, events))
    decreases |events|
  {
    if events != [] {
      DispatchPreservesInvariant(p, events[0]);
      RunPreservesInvariant(Dispatch(p, events[0]), events[1..]);
    }
  }

  /** The progress dots light up as a prefix: dot `k` is lit exactly for `k` up to the current step. */
  lemma DotsLightUpToStep<S, T>(p: Page<S, T>)
    requires Invariant(p)
    ensures DotLit(p, 1)
    ensures DotLit(p, 2) <==> p.currentStep >= 2
    ensures DotLit(p, 3) <==> p.currentStep == 3
    ensures DotLit(p, 3) ==> DotLit(p, 2)
  {
  }

  /** Back is a no-op on the first step and otherwise steps back once, so it never leaves the range. */
  lemma BackStaysInRange<S, T>(p: Page<S, T>)
    requires Invariant(p)
    ensures 1 <= HandleBack(p).currentStep <= 3
    ensures p.currentStep == 1 <==> HandleBack(p) == p
  {
  }

  /** Choosing a service and then a slot leads to the form with both stored. */
  lemma IntendedReachesDetails<S, T>(s: S, t: T)
    ensures Run(InitialPage(), [ServiceChosen(s), SlotChosen(t)]) == Page(3, Some(s), Some(t))
  {
    var events: seq<Event<S, T>> := [ServiceChosen(s), SlotChosen(t)];
    var p0: Page<S, T> := InitialPage();
    var p1 := Dispatch(p0, ServiceChosen(s));
    assert events[1..] == [SlotChosen(t)];
    assert Run(p0, events) == Run(p1, [SlotChosen(t)]);
    assert Run(p1, [SlotChosen(t)]) == Run(Dispatch(p1, SlotChosen(t)), []);
  }

  /** A completed booking resets the page, whatever was selected and whichever step is shown. */
  lemma CompletionResets<S, T>(p: Page<S, T>)
    ensures Dispatch(p, FormCompleted) == InitialPage()
  {
  }

  // ---------------------------------------------------------------- the wiring as written

  /**
    As wired, the page can never show the form: from a page on step 1 or 2,
    any sequence of callbacks leaves it on step 1 or 2.
   */
  lemma {:induction false} AsWrittenNeverReachesDetails<S, T>(p: Page<S, T>, events: seq<Event<S, T>>)
    requires 1 <= p.currentStep <= 2
    ensures 1 <= RunAsWritten(p, events).currentStep <= 2
    decreases |events|
  {
    if events != [] {
      AsWrittenNeverReachesDetails(DispatchAsWritten(p, events[0]), events[1..]);
    }
  }

  /** Worse, once on the calendar the page stays there: nothing it can receive moves it. */
  lemma {:induction false} AsWrittenStuckOnCalendar<S, T>(p: Page<S, T>, events: seq<Event<S, T>>)
    requires p.currentStep == 2
    ensures RunAsWritten(p, events) == p
    decreases |events|
  {
    if events != [] {
      AsWrittenStuckOnCalendar(DispatchAsWritten(p, events[0]), events[1..]);
    }
  }

  /** And a page on step 3 would ignore the form's completion: the selections survive it. */
  lemma AsWrittenCompletionIgnored<S, T>(p: Page<S, T>)
    requires p.currentStep == 3
    ensures DispatchAsWritten(p, FormCompleted) == p
    ensures DispatchAsWritten(p, FormCompleted) != Dispatch(p, FormCompleted)
  {
  }
}

=== FILE: country_picker.dfy ===
/**
  The country-code picker of the booking form: the fixed list of dialling
  codes and the search filter the picker shows.
 */
module CountryPicker {
  import opened Seqs
  import opened Strings

  /** One entry of the picker: dialling code, ISO country code, display name. */
  datatype Country = Country(code: string, country: string, name: string)

  /** The picker's list, in display order. */
  const CountryCodes: seq<Country> :=
    [
      Country("+1", "US", "United States"),
      Country("+1", "CA", "Canada"),
      Country("+44", "GB", "United Kingdom"),
      Country("+33", "FR", "France"),
      Country("+49", "DE", "Germany"),
      Country("+39", "IT", "Italy"),
      Country("+34", "ES", "Spain"),
      Country("+31", "NL", "Netherlands"),
      Country("+32", "BE", "Belgium"),
      Country("+41", "CH", "Switzerland"),
      Country("+43", "AT", "Austria"),
      Country("+45", "DK", "Denmark"),
      Country("+46", "SE", "Sweden"),
      Country("+47", "NO", "Norway"),
      Country("+358", "FI", "Finland"),
      Country("+351", "PT", "Portugal"),
      Country("+30", "GR", "Greece"),
      Country("+48", "PL", "Poland"),
      Country("+420", "CZ", "Czech Republic"),
      Country("+36", "HU", "Hungary"),
      Country("+7", "RU", "Russia"),
      Country("+86", "CN", "China"),
      Country("+81", "JP", "Japan"),
      Country("+82", "KR", "South Korea"),
      Country("+91", "IN", "India"),
      Country("+61", "AU", "Australia"),
      Country("+64", "NZ", "New Zealand"),
      Country("+55", "BR", "Brazil"),
      Country("+52", "MX", "Mexico"),
      Country("+54", "AR", "Argentina"),
      Country("+56", "CL", "Chile"),
      Country("+57", "CO", "Colombia"),
      Country("+51", "PE", "Peru"),
      Country("+58", "VE", "Venezuela"),
      Country("+27", "ZA", "South Africa"),
      Country("+20", "EG", "Egypt"),
      Country("+234", "NG", "Nigeria"),
      Country("+254", "KE", "Kenya"),
      Country("+971", "AE", "UAE"),
      Country("+966", "SA", "Saudi Arabia"),
      Country("+972", "IL", "Israel"),
      Country("+90", "TR", "Turkey"),
      Country("+98", "IR", "Iran"),
      Country("+92", "PK", "Pakistan"),
      Country("+880", "BD", "Bangladesh"),
      Country("+94", "LK", "Sri Lanka"),
      Country("+60", "MY", "Malaysia"),
      Country("+65", "SG", "Singapore"),
      Country("+66", "TH", "Thailand"),
      Country("+84", "VN", "Vietnam"),
      Country("+63", "PH", "Philippines"),
      Country("+62", "ID", "Indonesia")
    ]

  /**
    An entry stays in the list when its lower-cased name contains the
    lower-cased query, or its dialling code contains the query as typed.
   */
  predicate MatchesQuery(query: string, c: Country)
  {
    Includes(ToLower(c.name), ToLower(query)) || Includes(c.code, query)
  }

  function Matcher(query: string): Country -> bool
  {
    c => MatchesQuery(query, c)
  }

  /** `filteredCountries`: the entries of `countries` that match `query`, in list order. */
  function FilterCountries(countries: seq<Country>, query: string): seq<Country>
  {
    Filter(countries, Matcher(query))
  }

  /**
    The filtered list is an order-preserving selection of the entries, and
    it holds exactly the entries that match, each as often as in the list.
   */
  lemma FilterCountriesSpec(countries: seq<Country>, query: string)
    ensures IsSubsequence(FilterCountries(countries, query), countries)
    ensures forall c :: c in FilterCountries(countries, query) <==> c in countries && MatchesQuery(query, c)
    ensures forall c :: multiset(FilterCountries(countries, query))[c] == if MatchesQuery(query, c) then multiset(countries)[c] else 0
  {
    FilterIsSubsequence(countries, Matcher(query));
    forall c
      ensures multiset(FilterCountries(countries, query))[c] == if MatchesQuery(query, c) then multiset(countries)[c] else 0
    {
      FilterMultiplicity(countries, Matcher(query), c);
    }
  }

  /** An empty query keeps every entry, in the original order. */
  lemma EmptyQueryKeepsAll(countries: seq<Country>)
    ensures FilterCountries(countries, "") == countries
  {
    forall i | 0 <= i < |countries|
      ensures MatchesQuery("", countries[i])
    {
      IncludesEmpty(countries[i].code);
    }
    FilterKeepsAll(countries, Matcher(""));
  }

  predicate IsAsciiLetter(c: char)
  {
    'A' <= c <= 'Z' || 'a' <= c <= 'z'
  }

  predicate HasNoLetters(s: string)
  {
    forall k :: 0 <= k < |s| ==> !IsAsciiLetter(s[k])
  }

  /** Against a dialling code (no letters), two queries that agree up to ASCII case give the same answer. */
  lemma CodeMatchIgnoresCase(code: string, query: string, query': string)
    requires HasNoLetters(code)
    requires ToLower(query) == ToLower(query')
    ensures Includes(code, query) == Includes(code, query')
  {
    assert |query| == |query'|;
    if k :| 0 <= k < |query| && IsAsciiLetter(query[k]) {
      assert LowerChar(query[k]) == LowerChar(query'[k]);
      assert IsAsciiLetter(query'[k]);
      forall i
        ensures !OccursAt(code, query, i) && !OccursAt(code, query', i)
      {
        if 0 <= i && i + |query| <= |code| {
          assert code[i..i + |query|][k] == code[i + k];
        }
      }
    } else {
      forall k | 0 <= k < |query|
        ensures query[k] == query'[k]
      {
        assert LowerChar(query[k]) == LowerChar(query'[k]);
      }
      assert query == query';
    }
  }

  /** The search ignores the ASCII case of the query, since no dialling code contains a letter. */
  lemma QueryCaseIgnored(countries: seq<Country>, query: string, query': string)
    requires forall i :: 0 <= i < |countries| ==> HasNoLetters(countries[i].code)
    requires ToLower(query) == ToLower(query')
    ensures FilterCountries(countries, query) == FilterCountries(countries, query')
  {
    forall i | 0 <= i < |countries|
      ensures MatchesQuery(query, countries[i]) == MatchesQuery(query', countries[i])
    {
      CodeMatchIgnoresCase(countries[i].code, query, query');
    }
    FilterCongruent(countries, Matcher(query), Matcher(query'));
  }
}

=== FILE: form_validation.dfy ===
/**
  The field validators of the booking form: the email pattern, the phone
  digit count, and the card checks (card number length, `MM/YY` expiry,
  CVC length).
 */
module FormValidation {
  import opened Seqs
  import opened Strings

  // ---------------------------------------------------------------- email

  /** `[^\s@]`: a character the email pattern accepts inside its runs. */
  predicate IsEmailChar(c: char)
  {
    !IsSpace(c) && c != '@'
  }

  /** `[^\s@]+`: a non-empty run of such characters. */
  predicate IsEmailRun(t: string)
  {
    |t| > 0 && forall i :: 0 <= i < |t| ==> IsEmailChar(t[i])
  }

  /** `s` splits as run '@' run '.' run, with the '@' at `i` and the '.' at `j`. */
  predicate EmailSplit(s: string, i: int, j: int)
  {
    && 0 <= i < j < |s|
    && s[i] == '@' && s[j] == '.'
    && IsEmailRun(s[..i]) && IsEmailRun(s[i + 1..j]) && IsEmailRun(s[j + 1..])
  }

  /** What the anchored pattern `^[^\s@]+@[^\s@]+\.[^\s@]+$` matches: some split of that shape exists. */
  ghost predicate MatchesEmailPattern(s: string)
  {
    exists i, j :: EmailSplit(s, i, j)
  }

  /** Position of the first `c` in `s`, or `|s|` when there is none. */
  function IndexOf(s: string, c: char): (k: nat)
    ensures k <= |s|
    ensures k < |s| ==> s[k] == c
    ensures forall i :: 0 <= i < k ==> s[i] != c
  {
    if s == [] then 0 else if s[0] == c then 0 else 1 + IndexOf(s[1..], c)
  }

  /** The part after the '@': pattern characters only, with a '.' that is neither its first nor its last character. */
  predicate IsEmailDomain(d: string)
  {
    IsEmailRun(d) && |d| >= 3 && '.' in d[1..|d| - 1]
  }

  /** `validateEmail`: a single scan for the first '@', then a check of the two sides. */
  function ValidateEmail(email: string): bool
  {
    var at := IndexOf(email, '@');
    at < |email| && IsEmailRun(email[..at]) && IsEmailDomain(email[at + 1..])
  }

  /** The scanner accepts exactly the strings the regular expression matches. */
  lemma ValidateEmailMatchesPattern(email: string)
    ensures ValidateEmail(email) <==> MatchesEmailPattern(email)
  {
    if ValidateEmail(email) {
      AcceptedEmailSplits(email);
    }
    if MatchesEmailPattern(email) {
      var i, j :| EmailSplit(email, i, j);
      SplitEmailAccepted(email, i, j);
    }
  }

  /** Helper: an address the scanner accepts splits at its first '@' and a '.' of the domain. */
  lemma AcceptedEmailSplits(email: string)
    requires ValidateEmail(email)
    ensures exists j :: EmailSplit(email, IndexOf(email, '@'), j)
  {
    var at := IndexOf(email, '@');
    var d := email[at + 1..];
    var k :| 0 <= k < |d[1..|d| - 1]| && d[1..|d| - 1][k] == '.';
    var j := at + 2 + k;
    assert email[at + 1..j] == d[..k + 1];
    assert email[j + 1..] == d[k + 2..];
    assert EmailSplit(email, at, j);
  }

  /** Helper: an address that splits as the pattern demands passes the scanner, its '@' being the first one. */
  lemma SplitEmailAccepted(email: string, i: int, j: int)
    requires EmailSplit(email, i, j)
    ensures IndexOf(email, '@') == i
    ensures ValidateEmail(email)
  {
    assert forall m :: 0 <= m < i ==> email[..i][m] == email[m];
    var d := email[i + 1..];
    assert forall m :: 0 <= m < |d| ==> IsEmailChar(d[m]) by {
      forall m | 0 <= m < |d|
        ensures IsEmailChar(d[m])
      {
        if m < j - i - 1 {
          assert d[m] == email[i + 1..j][m];
        } else if m > j - i - 1 {
          assert d[m] == email[j + 1..][m - (j - i)];
        }
      }
    }
    assert d[1..|d| - 1][j - i - 2] == '.';
  }

  /** An accepted address has exactly one '@', something before it, and a '.' strictly inside the part after it. */
  lemma ValidEmailShape(email: string)
    requires ValidateEmail(email)
    ensures multiset(email)['@'] == 1
    ensures exists i, j :: 0 < i && i + 1 < j < |email| - 1 && email[i] == '@' && email[j] == '.'
  {
    AcceptedEmailSplits(email);
    var i := IndexOf(email, '@');
    var j :| EmailSplit(email, i, j);
    var before, rest := email[..i], email[i + 1..];
    assert email == before + [email[i]] + rest;
    assert '@' !in before by {
      assert forall m :: 0 <= m < |before| ==> IsEmailChar(before[m]);
    }
    assert '@' !in rest by {
      assert forall m :: 0 <= m < |rest| ==> IsEmailChar(rest[m]);
    }
  }

  /** `a@b.co` is accepted. */
  lemma EmailAcceptsExample()
    ensures ValidateEmail("a@b.co")
  {
    assert IndexOf("a@b.co", '@') == 1;
    assert "a@b.co"[..1] == "a";
    assert "a@b.co"[2..] == "b.co";
    assert "b.co"[1..3] == ".c";
  }

  /**
    Three refused addresses: one with no '@', one with no '.' after it, and
    one with the '.' right after the '@'. `ValidEmailShape` states the shape
    of every accepted address.
   */
  lemma EmailRejectsExamples()
    ensures !ValidateEmail("ab.co")
    ensures !ValidateEmail("a@bco")
    ensures !ValidateEmail("a@.co")
  {
    assert IndexOf("a@bco", '@') == 1;
    assert "a@bco"[2..] == "bco";
    assert "bco"[1..2] == "c";
    assert IndexOf("a@.co", '@') == 1;
    assert "a@.co"[2..] == ".co";
    assert ".co"[1..2] == "c";
  }

  // ---------------------------------------------------------------- phone

  predicate IsDigitOrPlus(c: char)
  {
    IsDigit(c) || c == '+'
  }

  /** `validatePhone`: drop everything but digits and '+', then everything but digits, and bound the count. */
  function ValidatePhone(phone: string): bool
  {
    var cleanPhone := Filter(phone, IsDigitOrPlus);
    var digitCount := |Filter(cleanPhone, IsDigit)|;
    7 <= digitCount && digitCount <= 15
  }

  /** Only the number of ASCII digits matters: between 7 and 15 of them, inclusive. */
  lemma ValidatePhoneCountsDigits(phone: string)
    ensures ValidatePhone(phone) <==> 7 <= DigitCount(phone) <= 15
  {
    FilterNarrowing(phone, IsDigitOrPlus, IsDigit);
  }

  /** Inserting a character that is not a digit anywhere in a phone number never changes the verdict. */
  lemma PhoneIgnoresNonDigit(before: string, c: char, after: string)
    requires !IsDigit(c)
    ensures ValidatePhone(before + [c] + after) == ValidatePhone(before + after)
  {
    ValidatePhoneCountsDigits(before + [c] + after);
    ValidatePhoneCountsDigits(before + after);
    FilterAppend(before + [c], after, IsDigit);
    FilterAppend(before, [c], IsDigit);
    FilterAppend(before, after, IsDigit);
  }

  /**
    The country code is validated together with the number, so behind "+1"
    the number itself needs only 6 to 14 digits: "+1" and five digits fails.
   */
  lemma PhoneCountsCountryCode(code: string, number: string)
    requires code == "+1"
    ensures ValidatePhone(code + number) <==> 6 <= DigitCount(number) <= 14
  {
    ValidatePhoneCountsDigits(code + number);
    CountWhereAppend(code, number, IsDigit);
    assert code == "+" + "1";
    CountWhereAppend("+", "1", IsDigit);
  }

  // ---------------------------------------------------------------- card

  /** `/^\d{2}\/\d{2}$/.test(s)`: two digits, a slash, two digits, nothing else. */
  predicate IsExpiryFormat(s: string)
  {
    |s| == 5 && IsDigit(s[0]) && IsDigit(s[1]) && s[2] == '/' && IsDigit(s[3]) && IsDigit(s[4])
  }

  /** The card number check: at least 13 UTF-16 units once whitespace is removed. */
  predicate IsCardNumberLongEnough(s: string)
  {
    Utf16Length(RemoveSpaces(s)) >= 13
  }

  /** The CVC check: at least 3 UTF-16 units. */
  predicate IsCvcLongEnough(s: string)
  {
    Utf16Length(s) >= 3
  }

  /**
    The CVC check counts UTF-16 units, not digits or characters: any three
    characters pass, one character never does, and two characters outside the
    Basic Multilingual Plane pass. For text inside that plane it is exactly
    "at least 3 characters".
   */
  lemma CvcCountsCodeUnits(s: string)
    ensures |s| >= 3 ==> IsCvcLongEnough(s)
    ensures |s| <= 1 ==> !IsCvcLongEnough(s)
    ensures (forall i :: 0 <= i < |s| ==> s[i] as int < 0x10000) ==> (IsCvcLongEnough(s) <==> |s| >= 3)
    ensures IsCvcLongEnough("\U{1F600}\U{1F600}")
  {
  }

  /** The expiry check looks at shape only: a month of 99 passes, a one-digit month does not. */
  lemma ExpiryIsShapeOnly()
    ensures IsExpiryFormat("99/99")
    ensures !IsExpiryFormat("1/25")
  {
  }

  /**
    The card number check counts characters, not digits: for a number with no
    whitespace and no characters outside the Basic Multilingual Plane it is
    exactly "at least 13 characters", letters included.
   */
  lemma CardNumberCountsCharacters(s: string)
    requires forall i :: 0 <= i < |s| ==> !IsSpace(s[i]) && s[i] as int < 0x10000
    ensures IsCardNumberLongEnough(s) <==> |s| >= 13
  {
    FilterKeepsAll(s, IsNotSpace);
  }
}

=== FILE: seqs.dfy ===
/**
  Sequence utilities shared by the booking screens: an optional value, the
  order-preserving filter that `Array.prototype.filter` performs, and the
  subsequence relation that describes what such a filter may return.
 */
module Seqs {

  /** A value that may be absent (`null` in the screens' state). */
  datatype Option<T> = None | Some(value: T)

  /** `a` is obtained from `b` by deleting zero or more elements. */
  predicate IsSubsequence<T(==)>(a: seq<T>, b: seq<T>)
    decreases |b|
  {
    a == [] || (b != [] && (IsSubsequence(a, b[1..]) || (a[0] == b[0] && IsSubsequence(a[1..], b[1..]))))
  }

  /** Number of elements of `s` that satisfy `p`. */
  function CountWhere<T>(s: seq<T>, p: T -> bool): nat
  {
    if s == [] then 0 else (if p(s[0]) then 1 else 0) + CountWhere(s[1..], p)
  }

  /**
    `s.filter(p)`: the elements of `s` that satisfy `p`, in their original
    order, each with its original multiplicity.
   */
  function Filter<T(==,!new)>(s: seq<T>, p: T -> bool): (r: seq<T>)
    ensures |r| == CountWhere(s, p)
    ensures forall i :: 0 <= i < |r| ==> p(r[i])
    ensures forall x :: x in r <==> x in s && p(x)
  {
    if s == [] then []
    else
      var rest := Filter(s[1..], p);
      assert s == [s[0]] + s[1..];
      if p(s[0]) then [s[0]] + rest else rest
  }

  /** Each element occurs in the filtered sequence exactly as often as in `s` when it satisfies `p`, and never otherwise. */
  lemma {:induction false} FilterMultiplicity<T(!new)>(s: seq<T>, p: T -> bool, x: T)
    ensures multiset(Filter(s, p))[x] == if p(x) then multiset(s)[x] else 0
  {
    if s != [] {
      FilterMultiplicity(s[1..], p, x);
      assert s == [s[0]] + s[1..];
      assert multiset(s) == multiset{s[0]} + multiset(s[1..]);
      if p(s[0]) {
        assert multiset(Filter(s, p)) == multiset{s[0]} + multiset(Filter(s[1..], p));
      }
    }
  }

  lemma {:induction false} FilterIsSubsequence<T(!new)>(s: seq<T>, p: T -> bool)
    ensures IsSubsequence(Filter(s, p), s)
  {
    if s != [] {
      FilterIsSubsequence(s[1..], p);
      if p(s[0]) {
        assert Filter(s, p) == [s[0]] + Filter(s[1..], p);
        assert Filter(s, p)[1..] == Filter(s[1..], p);
      } else {
        SubsequenceOfTail(Filter(s, p), s);
      }
    }
  }

  /** Helper: a subsequence of the tail is a subsequence of the whole. */
  lemma SubsequenceOfTail<T>(a: seq<T>, b: seq<T>)
    requires b != [] && IsSubsequence(a, b[1..])
    ensures IsSubsequence(a, b)
  {
  }

  /** Keeping every element that satisfies `p` returns the sequence unchanged. */
  lemma {:induction false} FilterKeepsAll<T(!new)>(s: seq<T>, p: T -> bool)
    requires forall i :: 0 <= i < |s| ==> p(s[i])
    ensures Filter(s, p) == s
  {
    if s != [] {
      FilterKeepsAll(s[1..], p);
      assert s == [s[0]] + s[1..];
    }
  }

  /** Re-applying a filter to its own output changes nothing. */
  lemma FilterIdempotent<T(!new)>(s: seq<T>, p: T -> bool)
    ensures Filter(Filter(s, p), p) == Filter(s, p)
  {
    FilterKeepsAll(Filter(s, p), p);
  }

  /** Filtering distributes over concatenation. */
  lemma {:induction false} FilterAppend<T(!new)>(a: seq<T>, b: seq<T>, p: T -> bool)
    ensures Filter(a + b, p) == Filter(a, p) + Filter(b, p)
  {
    if a != [] {
      assert (a + b)[0] == a[0];
      assert (a + b)[1..] == a[1..] + b;
      FilterAppend(a[1..], b, p);
      if p(a[0]) {
        calc {
          Filter(a + b, p);
          [a[0]] + Filter(a[1..] + b, p);
          [a[0]] + (Filter(a[1..], p) + Filter(b, p));
          ([a[0]] + Filter(a[1..], p)) + Filter(b, p);
        }
      }
    } else {
      assert a + b == b;
    }
  }

  /** A second, narrower filter applied after a first one sees the same elements as applied directly. */
  lemma {:induction false} FilterNarrowing<T(!new)>(s: seq<T>, p: T -> bool, q: T -> bool)
    requires forall x :: q(x) ==> p(x)
    ensures Filter(Filter(s, p), q) == Filter(s, q)
  {
    if s != [] {
      FilterNarrowing(s[1..], p, q);
      if p(s[0]) {
        assert Filter(s, p) == [s[0]] + Filter(s[1..], p);
        assert Filter(s, p)[1..] == Filter(s[1..], p);
      }
    }
  }

  /**
    Two complementary filters split a sequence: their lengths add up to its
    length and their elements together are exactly its elements.
   */
  lemma FilterComplement<T(!new)>(s: seq<T>, p: T -> bool, q: T -> bool)
    requires forall x :: q(x) <==> !p(x)
    ensures |Filter(s, p)| + |Filter(s, q)| == |s|
    ensures multiset(Filter(s, p)) + multiset(Filter(s, q)) == multiset(s)
  {
    forall x
      ensures (multiset(Filter(s, p)) + multiset(Filter(s, q)))[x] == multiset(s)[x]
    {
      FilterMultiplicity(s, p, x);
      FilterMultiplicity(s, q, x);
    }
    assert multiset(Filter(s, p)) + multiset(Filter(s, q)) == multiset(s);
  }

  lemma {:induction false} CountWhereAppend<T>(a: seq<T>, b: seq<T>, p: T -> bool)
    ensures CountWhere(a + b, p) == CountWhere(a, p) + CountWhere(b, p)
  {
    if a != [] {
      assert (a + b)[0] == a[0];
      assert (a + b)[1..] == a[1..] + b;
      CountWhereAppend(a[1..], b, p);
    } else {
      assert a + b == b;
    }
  }

  /** Filters that agree on every element of `s` select the same elements. */
  lemma {:induction false} FilterCongruent<T(!new)>(s: seq<T>, p: T -> bool, q: T -> bool)
    requires forall i :: 0 <= i < |s| ==> p(s[i]) == q(s[i])
    ensures Filter(s, p) == Filter(s, q)
  {
    if s != [] {
      FilterCongruent(s[1..], p, q);
    }
  }
}

=== FILE: service_selection.dfy ===
/**
  The service list: its "All" / "Free" / "Paid" tabs, the filtered list they
  show, and the badge each card carries.
 */
module ServiceSelection {
  import opened Seqs
  import BookingForm

  /** A service's `type`: "free" or "paid". */
  datatype Kind = Free | Paid

  /** `Service`; a `null` price is `None`. */
  datatype Service = Service(
    id: string, name: string, description: string, duration: string,
    price: Option<real>, kind: Kind)

  /** `activeFilter`: "all", or one of the two kinds. */
  datatype ServiceFilter = All | OnlyKind(kind: Kind)

  /** The tab selected when the list first renders. */
  const InitialFilter := All

  /** The filter callback: every service under "all", otherwise those whose type is the tab's. */
  predicate Keeps(f: ServiceFilter, s: Service)
  {
    f.All? || s.kind == f.kind
  }

  /** `Keeps` as the callback passed to `filter`. */
  function KeepFor(f: ServiceFilter): Service -> bool
  {
    s => Keeps(f, s)
  }

  /** `filteredServices`: the services the active tab keeps, in their original order. */
  function FilteredServices(services: seq<Service>, f: ServiceFilter): (r: seq<Service>)
    ensures forall s :: s in r <==> s in services && Keeps(f, s)
  {
    Filter(services, KeepFor(f))
  }

  /** The services shown when no `services` prop is given. */
  const DefaultServices: seq<Service> := [
    Service("1", "Initial Consultation", "A free 15-minute consultation to discuss your needs", "15 min", None, Free),
    Service("2", "Standard Appointment", "Regular 30-minute appointment session", "30 min", Some(50.0), Paid),
    Service("3", "Extended Session", "In-depth 60-minute appointment session", "60 min", Some(90.0), Paid),
    Service("4", "Quick Follow-up", "Brief follow-up session for existing clients", "15 min", None, Free)
  ]

  /** The "All" tab shows the list unchanged. */
  lemma AllShowsEverything(services: seq<Service>)
    ensures FilteredServices(services, All) == services
  {
    FilterKeepsAll(services, KeepFor(All));
  }

  /** Until a tab is pressed, the list shows every service, in order. */
  lemma InitialTabShowsEverything(services: seq<Service>)
    ensures FilteredServices(services, InitialFilter) == services
  {
    AllShowsEverything(services);
  }

  /**
    Every tab keeps the list's order and each kept service's multiplicity: the
    result is a subsequence of the list, and a service occurs in it as often
    as in the list when the tab keeps it, and not at all otherwise.
   */
  lemma FilteredKeepsOrder(services: seq<Service>, f: ServiceFilter, s: Service)
    ensures IsSubsequence(FilteredServices(services, f), services)
    ensures multiset(FilteredServices(services, f))[s] == if Keeps(f, s) then multiset(services)[s] else 0
  {
    FilterIsSubsequence(services, KeepFor(f));
    FilterMultiplicity(services, KeepFor(f), s);
  }

  /** The "Free" and "Paid" tabs split the list: together they show every service exactly once. */
  lemma FreeAndPaidPartition(services: seq<Service>)
    ensures |FilteredServices(services, OnlyKind(Free))| + |FilteredServices(services, OnlyKind(Paid))| == |services|
    ensures multiset(FilteredServices(services, OnlyKind(Free))) + multiset(FilteredServices(services, OnlyKind(Paid))) == multiset(services)
  {
    FilterComplement(services, KeepFor(OnlyKind(Free)), KeepFor(OnlyKind(Paid)));
  }

  /** Filtering the filtered list again by the same tab changes nothing. */
  lemma FilterTwiceIsOnce(services: seq<Service>, f: ServiceFilter)
    ensures FilteredServices(FilteredServices(services, f), f) == FilteredServices(services, f)
  {
    FilterIdempotent(services, KeepFor(f));
  }

  /** In a list of four services typed free, paid, paid, free, "Free" shows the first and last and "Paid" the middle two. */
  lemma TabsOfFour(a: Service, b: Service, c: Service, d: Service)
    requires a.kind == Free && b.kind == Paid && c.kind == Paid && d.kind == Free
    ensures FilteredServices([a, b, c, d], OnlyKind(Free)) == [a, d]
    ensures FilteredServices([a, b, c, d], OnlyKind(Paid)) == [b, c]
  {
    KindFilterOfFour(a, b, c, d, Free);
    KindFilterOfFour(a, b, c, d, Paid);
  }

  /** Helper: filtering four services by kind, one service at a time. */
  lemma KindFilterOfFour(a: Service, b: Service, c: Service, d: Service, k: Kind)
    ensures FilteredServices([a, b, c, d], OnlyKind(k)) ==
      Single(a, k) + (Single(b, k) + (Single(c, k) + Single(d, k)))
  {
    var p := KeepFor(OnlyKind(k));
    assert [a, b, c, d] == [a] + [b, c, d];
    assert [b, c, d] == [b] + [c, d];
    assert [c, d] == [c] + [d];
    FilterAppend([a], [b, c, d], p);
    FilterAppend([b], [c, d], p);
    FilterAppend([c], [d], p);
    SingleKind(a, k);
    SingleKind(b, k);
    SingleKind(c, k);
    SingleKind(d, k);
  }

  /** The one-service list `[s]` under the tab of kind `k`. */
  function Single(s: Service, k: Kind): seq<Service>
  {
    if s.kind == k then [s] else []
  }

  /** Helper: a one-service list keeps its service exactly under the tab of its kind. */
  lemma SingleKind(s: Service, k: Kind)
    ensures FilteredServices([s], OnlyKind(k)) == Single(s, k)
  {
    assert [s][1..] == [];
  }

  /** The default list: "Free" shows services 1 and 4, "Paid" shows 2 and 3. */
  lemma DefaultTabs()
    ensures FilteredServices(DefaultServices, OnlyKind(Free)) == [DefaultServices[0], DefaultServices[3]]
    ensures FilteredServices(DefaultServices, OnlyKind(Paid)) == [DefaultServices[1], DefaultServices[2]]
  {
    var s := DefaultServices;
    assert s == [s[0], s[1], s[2], s[3]];
    TabsOfFour(s[0], s[1], s[2], s[3]);
  }

  /**
    In the default list a service's type agrees with the form's price test:
    the "paid" ones are exactly those the booking form asks to pay for.
   */
  lemma DefaultKindsAgreeWithPrices()
    ensures forall i :: 0 <= i < |DefaultServices| ==> (DefaultServices[i].kind == Paid <==> BookingForm.IsPaid(DefaultServices[i].price))
  {
  }

  /** The corner of a service card: "FREE", or a dollar sign and the price. */
  datatype Badge = FreeBadge | PriceBadge(price: Option<real>)

  /** The badge follows the type, not the price. */
  function BadgeFor(s: Service): (b: Badge)
    ensures b == FreeBadge <==> s.kind == Free
    ensures b.PriceBadge? ==> b.price == s.price
  {
    if s.kind == Free then FreeBadge else PriceBadge(s.price)
  }

  /** Under the "Free" tab every card shows "FREE"; under the "Paid" tab none does. */
  lemma TabBadges(services: seq<Service>)
    ensures forall s :: s in FilteredServices(services, OnlyKind(Free)) ==> BadgeFor(s) == FreeBadge
    ensures forall s :: s in FilteredServices(services, OnlyKind(Paid)) ==> BadgeFor(s).PriceBadge?
  {
  }
}

=== FILE: strings.dfy ===
/**
  The few JavaScript string operations the booking screens use, over Dafny
  strings of Unicode scalar values: the whitespace class shared by `\s` and
  `String.prototype.trim`, ASCII digits (`\d`), UTF-16 `length`,
  `toLowerCase` on ASCII letters, `includes`, and the decimal text of a
  non-negative integer.
 */
module Strings {
  import opened Seqs

  /** ECMAScript WhiteSpace and LineTerminator code points: what `\s` matches and `trim` removes. */
  predicate IsSpace(c: char): (b: bool)
    ensures c == ' ' || c == '\t' || c == '\n' || c == '\r' ==> b
    ensures b ==> c != '@' && c != '.' && c != '/' && c != '+' && !('0' <= c <= '9')
    ensures b ==> !('A' <= c <= 'Z') && !('a' <= c <= 'z')
  {
    var n := c as int;
    n == 0x09 || n == 0x0A || n == 0x0B || n == 0x0C || n == 0x0D || n == 0x20 || n == 0xA0
    || n == 0x1680 || (0x2000 <= n <= 0x200A) || n == 0x2028 || n == 0x2029
    || n == 0x202F || n == 0x205F || n == 0x3000 || n == 0xFEFF
  }

  predicate IsNotSpace(c: char) { !IsSpace(c) }

  /** `\d`: the ASCII decimal digits only. */
  predicate IsDigit(c: char) { '0' <= c <= '9' }

  /** Every character of `s` is whitespace (the empty string included). */
  predicate IsBlank(s: string)
  {
    forall i :: 0 <= i < |s| ==> IsSpace(s[i])
  }

  /** Number of whitespace characters at the start of `s`. */
  function LeadingSpaces(s: string): (n: nat)
    ensures n <= |s|
    ensures forall i :: 0 <= i < n ==> IsSpace(s[i])
    ensures n < |s| ==> !IsSpace(s[n])
  {
    if s == [] || !IsSpace(s[0]) then 0 else 1 + LeadingSpaces(s[1..])
  }

  /** Number of whitespace characters at the end of `s`. */
  function TrailingSpaces(s: string): (n: nat)
    ensures n <= |s|
    ensures forall i :: |s| - n <= i < |s| ==> IsSpace(s[i])
    ensures n < |s| ==> !IsSpace(s[|s| - 1 - n])
  {
    if s == [] || !IsSpace(s[|s| - 1]) then 0 else 1 + TrailingSpaces(s[..|s| - 1])
  }

  /** `s.trim()`: leading and trailing whitespace removed. */
  function Trim(s: string): string
  {
    var t := s[LeadingSpaces(s)..];
    t[..|t| - TrailingSpaces(t)]
  }

  /** `!s.trim()` holds exactly for the strings made of whitespace only. */
  lemma TrimEmptyIffBlank(s: string)
    ensures Trim(s) == [] <==> IsBlank(s)
  {
    var a := LeadingSpaces(s);
    var t := s[a..];
    if IsBlank(s) {
      assert a == |s|;
    } else {
      assert a < |s| && t[0] == s[a];
    }
  }

  /** Number of UTF-16 code units of `s`: JavaScript's `length`. */
  function Utf16Length(s: string): (n: nat)
    ensures |s| <= n <= 2 * |s|
    ensures (forall i :: 0 <= i < |s| ==> s[i] as int < 0x10000) ==> n == |s|
  {
    if s == [] then 0 else (if s[0] as int < 0x10000 then 1 else 2) + Utf16Length(s[1..])
  }

  /** `s.replace(/\s/g, "")`. */
  function RemoveSpaces(s: string): string
  {
    Filter(s, IsNotSpace)
  }

  /** Number of ASCII digits in `s`. */
  function DigitCount(s: string): nat
  {
    CountWhere(s, IsDigit)
  }

  /** `c.toLowerCase()` for the ASCII letters; other characters are left alone. */
  function LowerChar(c: char): char
  {
    if 'A' <= c <= 'Z' then (c as int + 32) as char else c
  }

  /** `s.toLowerCase()`, character by character. */
  function ToLower(s: string): (r: string)
    ensures |r| == |s|
    ensures forall i :: 0 <= i < |s| ==> r[i] == LowerChar(s[i])
  {
    if s == [] then [] else [LowerChar(s[0])] + ToLower(s[1..])
  }

  /** `q` occurs in `s` starting at index `i`. */
  predicate OccursAt(s: string, q: string, i: int)
  {
    0 <= i && i + |q| <= |s| && s[i..i + |q|] == q
  }

  /** `s.includes(q)`: a left-to-right search for `q` in `s`. */
  function Includes(s: string, q: string): (b: bool)
    ensures b <==> exists i :: OccursAt(s, q, i)
  {
    if |q| > |s| then
      assert forall i :: !OccursAt(s, q, i);
      false
    else if s[..|q|] == q then
      assert OccursAt(s, q, 0);
      true
    else
      var b := Includes(s[1..], q);
      assert forall i :: 1 <= i ==> (OccursAt(s, q, i) <==> OccursAt(s[1..], q, i - 1));
      assert b ==> exists i :: OccursAt(s, q, i) by {
        if b {
          var j :| OccursAt(s[1..], q, j);
          assert OccursAt(s, q, j + 1);
        }
      }
      b
  }

  /** Every string includes the empty string. */
  lemma IncludesEmpty(s: string)
    ensures Includes(s, "")
  {
    assert OccursAt(s, "", 0);
  }

  /** The character for a decimal digit value. */
  function DigitChar(d: nat): char
    requires d < 10
  {
    (48 + d) as char
  }

  /** The value of a single digit character. */
  function DigitValue(c: char): nat
    requires IsDigit(c)
  {
    c as int - 48
  }

  /** `String(n)` for a non-negative integer: its decimal digits, without leading zeros. */
  function NatToString(n: nat): (r: string)
    ensures |r| >= 1
    ensures forall i :: 0 <= i < |r| ==> IsDigit(r[i])
    ensures r[0] == '0' ==> n == 0
  {
    if n < 10 then [DigitChar(n)] else NatToString(n / 10) + [DigitChar(n % 10)]
  }

  /** The number a string of decimal digits denotes. */
  function DigitsValue(s: string): nat
    requires forall i :: 0 <= i < |s| ==> IsDigit(s[i])
  {
    if s == [] then 0 else 10 * DigitsValue(s[..|s| - 1]) + DigitValue(s[|s| - 1])
  }

  /** Reading back the decimal text of `n` gives `n`. */
  lemma {:induction false} NatToStringRoundTrip(n: nat)
    ensures DigitsValue(NatToString(n)) == n
  {
    if n >= 10 {
      var r := NatToString(n);
      NatToStringRoundTrip(n / 10);
      assert r[..|r| - 1] == NatToString(n / 10);
    }
  }
}
